=== FILE: README.md ===
# robosim core in Dafny

A model of the core of the robosim line-following simulator. It has four
parts, one module each:

- **GamePad**: the joystick reader.
  - The scaled deadzone and the clamp.
  - Axis reads that degrade to 0.
  - The command one poll cycle publishes.
  - The poll scheduler's deadline rule.
- **Sensor**: the light sensor.
  - The body-to-world transform of a mount.
  - The world-to-pixel transform with y flipped.
  - The integer bounding box, clipped to the image.
  - The circular mask, and the mean intensity under it.
- **Kinematics**: the unicycle pose and its integration step.
- **Visualizer**: the simulation loop.
  - The initial mode and the button-0 toggle between joystick and controller.
  - The eight-sensor setup.
  - The timer tick: read sensors, select a command, advance the pose.

Three helper modules support them:

- **Wrappers**: `Option`.
- **Trigonometry**: uninterpreted cosine and sine, passed around as a `Trig` value.
- **RealArith**: small lemmas on real products and quotients.

Python exceptions that the core can raise are modelled as values rather
than excluded by preconditions:

- `ApplyDeadzone` returns `None` for the division by zero at threshold 1.
- `NewConfig` returns `None` for a zero polling rate.
- `NewLightSensor` returns `None` for a zero map size.
- `SafeAxis` returns `Raised` for a detached device.
- The polling thread dies (`alive == false`) when shaping raises.

The reference definition of a sensor reading is `Sensor.GridTally`. It is
the tally of the masked cells over the WHOLE grid. `Sensor.ValueIsMaskedMean`
proves that the bounding box, the clip and the empty-window shortcut never
change the answer.

The model follows the code where it is more specific than its own
description:

- The deadzone divides by `1 - dz`, so a threshold of exactly 1 with an
  input beyond it raises.
- A device that is missing during polling reads as 0 in `_safe_axis`.
- The sensor mask compares a cell's integer corner point (col, row) with
  the circle's centre. There is no half-cell offset, and the pixel radius
  uses the horizontal scale only.

## Model

| member | source | states |
|---|---|---|
| `GamePad.CopySign` | game_pad.py:129 | the result has the magnitude of `m` and the sign of `v` (non-positive for negative `v`, non-negative otherwise) |
| `GamePad.ApplyDeadzone` | game_pad.py:122-129 | fails exactly when the threshold is 1 and the input lies beyond it (division by zero); otherwise the output is 0 iff the input is within the threshold, and outside the band its sign is the input's |
| `GamePad.DeadzoneIsScaledShrink` | game_pad.py:126-129 | for a threshold below 1 the output times `1 - dz` is the soft threshold: 0 inside the band, the input moved `dz` towards 0 outside it |
| `GamePad.DeadzoneEndpoints` | game_pad.py:128-129 | full deflection ±1 maps to exactly ±1 for any threshold in [0, 1) |
| `GamePad.DeadzoneRange` | game_pad.py:128-129 | inputs in [-1, 1] give outputs in [-1, 1] |
| `GamePad.DeadzoneContinuous` | game_pad.py:126-129 | the shaped axis is monotone and rises by at most `(w - v) / (1 - dz)` between `v` and `w`, so there is no jump at the band edge |
| `GamePad.Clamp` | game_pad.py:131-133 | the result lies in `[lo, hi]` when that range is non-empty, is `x` itself when `x` is already in range, and is `lo` when `hi < lo` (max is applied last) |
| `GamePad.ClampIsNearest` | game_pad.py:131-133 | the clamp is the point of `[lo, hi]` nearest to `x` |
| `GamePad.NewConfig` | game_pad.py:18-24 | fails exactly for a zero rate; the period times the rate is 1; the device index, both axis indices, the limits and the threshold are kept |
| `GamePad.SafeAxis` | game_pad.py:113-119 | 0 without a device or for an index outside the axis count; raises exactly when the device is detached; for an attached device and an in-range index, exactly the device's axis value |
| `GamePad.ReadAxes` | game_pad.py:81-87 | a detached or missing device gives (0, 0); on an attached device each configured axis reads the device's value when in range and 0 when not |
| `GamePad.MapAxes` | game_pad.py:89-98 | fails exactly when the threshold is 1 and a raw axis lies beyond ±1; the speed lies in `[-vmax, vmax]` and the steering in `[-steer_max, steer_max]` |
| `GamePad.Drive` | game_pad.py:94-98 | the inverted, scaled and clamped axis never exceeds the limit in size, and lies in `[-limit, limit]` for a non-negative limit |
| `GamePad.DriveProportional` | game_pad.py:94-98 | for a shaped axis in [-1, 1] and a non-negative limit, the clamp does not bite: the result is exactly the inverted axis times the limit |
| `GamePad.MapAxesScales` | game_pad.py:89-98 | for sticks within ±1, a threshold below 1 and non-negative limits, the command exists and is exactly minus the deadzoned throttle times `vmax` and minus the deadzoned steer times `steer_max` |
| `GamePad.CommandInvertsAxes` | game_pad.py:93-98 | speed is negative iff the throttle axis is pushed past `+dz`, positive iff past `-dz`; the same holds for steering against the steer axis |
| `GamePad.FullDeflectionReachesLimits` | game_pad.py:90-98 | both sticks at -1 give `(vmax, steer_max)`; both at +1 give the negatives |
| `GamePad.NextDeadline` | game_pad.py:105-111 | the next deadline is one period later when that is strictly in the future, and otherwise (a delay of zero included) the clock read again; either way it is not before the current time |
| `GamePad.ScheduleNeverBursts` | game_pad.py:104-111 | after n cycles the deadline is at least n periods past the start and not before the last clock reading, so the loop never catches up in a burst |
| `GamePad.ReleasedButtons` | game_pad.py:75-78 | one event yields its button if it is a release and nothing otherwise; never more buttons than events |
| `GamePad.ReleasedButtonsConcat` | game_pad.py:75-78 | draining two batches gives the first batch's releases followed by the second's; with the single-event case this means each release once, in arrival order |
| `GamePad.NewReader` | game_pad.py:27-31 | a new reader is alive and publishes a zero, in-range command; it keeps the configuration, whether a callback is registered, and the start time as its first deadline |
| `GamePad.GetSteering` | game_pad.py:63-66 | the returned pair is the published command, so it lies within the configured limits exactly when that command does |
| `GamePad.PollCycle` | game_pad.py:70-111 | callbacks get exactly the released buttons, in order, when one is registered; a live reader stays alive iff shaping the read axes succeeds; the configuration is kept; in-range commands stay in range; a cycle that stays alive takes its new deadline from the deadline rule, which is not before now and at least a period later; a dead reader changes nothing |
| `GamePad.LiveCyclePublishesStick` | game_pad.py:90-102 | with a threshold below 1, a live cycle on an attached device stays alive and publishes the deadzoned, inverted, scaled and clamped values of the two configured axes |
| `GamePad.DetachedDevicePublishesZero` | game_pad.py:81-102 | a device that is detached mid-poll makes the cycle publish (0, 0) and keep polling |
| `Kinematics.New` | kinematics.py:3-11 | a new engine reports the state (0, 0, 0) |
| `Kinematics.GetState` | kinematics.py:19-20 | the snapshot determines the state: rebuilding a state from it gives back the engine's state |
| `Kinematics.Update` | kinematics.py:13-16 | zero velocities leave the state unchanged; zero angular velocity keeps the heading |
| `Kinematics.HeadingStep` | kinematics.py:16 | the heading advances by exactly `w * dt`, whatever the linear velocity |
| `Kinematics.PositionUsesPriorHeading` | kinematics.py:14-15 | the position moves by `v * dt` along the heading held BEFORE the step and does not depend on the angular velocity |
| `Kinematics.RestIsStationary` | kinematics.py:13-16 | any number of zero commands leave the state unchanged (no drift at rest) |
| `Kinematics.HeadingAccumulates` | kinematics.py:16 | after a command sequence the heading is the initial one plus `dt` times the summed angular velocities |
| `Kinematics.StraightLine` | kinematics.py:13-16 | n steps without turning move the position n times along the initial heading |
| `Kinematics.TenStepsFromOrigin` | kinematics.py:9-16 | ten unit-speed steps of the default 0.1 from a new engine end at (1, 0, 0) |
| `Sensor.Floor` | sensor.py:50-52 | the result is the largest integer not above the input |
| `Sensor.Ceil` | sensor.py:51-53 | the result is the smallest integer not below the input |
| `Sensor.BoundingBox` | sensor.py:50-53 | each bound is the nearest integer outward from the circle's extent `c ± r` on its axis |
| `Sensor.Clip` | sensor.py:55-59 | the clipped box lies inside the image and holds exactly the in-image cells of the box |
| `Sensor.BoundingBoxCoversCircle` | sensor.py:50-66 | with a non-negative radius, every cell the mask selects lies in the floor/ceil bounding box |
| `Sensor.EmptyWindowReadsZero` | sensor.py:61-62 | a window clipped to nothing reads 0, and then no in-image cell lies in the bounding box |
| `Sensor.ValueAt` | sensor.py:49-72 | on an 8-bit greyscale map the reading lies in [0, 1], the range promised at sensor.py lines 30-31 |
| `Sensor.ValueIsMaskedMean` | sensor.py:49-72 | the window's tally equals the tally of the mask over the whole grid, so the reading is the mean intensity of exactly the in-image cells whose integer corner point (col, row) is within the radius |
| `Sensor.MeanWithin` | sensor.py:68-70 | a non-empty selection of levels in `[lo, hi]` has a mean intensity between theirs |
| `Sensor.ReadingWithinCoveredRange` | sensor.py:61-72 | if every covered in-image level lies in `[lo, hi]`, the reading lies between their intensities, or is 0 because nothing is covered |
| `Sensor.UniformRegionReadsItsValue` | sensor.py:64-70 | a circle with a non-negative radius that covers at least one cell of a uniform region reads that region's intensity exactly |
| `Sensor.NoCoveredCellReadsZero` | sensor.py:61-72 | a circle that covers no in-image cell reads 0 |
| `Sensor.NewLightSensor` | sensor.py:13-24 | fails exactly for a zero map size; keeps the geometry, grid and map size; the radius is half the diameter; the scale times the map size is the image size on each axis |
| `Sensor.SensorPosition` | sensor.py:36-38 | whenever cos² + sin² = 1 at the heading, the sensor lies at its body-frame distance from the vehicle (the mount is rigid) |
| `Sensor.BodyOffsetRecovered` | sensor.py:36-38 | rotating the sensor's world offset back by the heading recovers its body-frame mount, given cos² + sin² = 1 |
| `Sensor.WorldToPixel` | sensor.py:43-44 | pixel x is world x scaled by image width over map width; pixel y is the distance below the map top scaled by image height over map height |
| `Sensor.PixelFrameCorners` | sensor.py:40-44 | the map's top-left world corner is pixel (0, 0) and its bottom-right is (width, height); moving up in the world moves up the image |
| `Sensor.PixelCircle` | sensor.py:43-47 | the centre is the sensor's world position scaled per axis, with rows counted from the map top; the radius is the view radius scaled by the horizontal scale only, and is non-negative for a non-negative diameter |
| `Sensor.GetSensorValue` | sensor.py:26-72 | on an 8-bit map the reading lies in [0, 1]; with a non-negative diameter and a positive map width it is the mean intensity of exactly the grid cells under the sensor's pixel circle |
| `Visualizer.ButtonCallback` | visualizer.py:36-44 | the mode changes iff the button is 0, and then to the other mode |
| `Visualizer.ToggleParity` | visualizer.py:36-44 | after a run of buttons the mode depends only on the parity of the button-0 presses |
| `Visualizer.ModeFromStart` | visualizer.py:15-44 | from the initial joystick mode, the controller drives iff button 0 was pressed an odd number of times |
| `Visualizer.JoystickLimits` | visualizer.py:26-34 | the configuration is well formed; full deflection asks for (15, 60) one way and (-15, -60) the other |
| `Visualizer.GeometriesLeftToRight` | visualizer.py:51-58 | eight mounts 0.5 ahead, 0.5 wide, spaced 0.5 apart from left to right, and symmetric about the axis |
| `Visualizer.MountSensors` | visualizer.py:50-58 | one well-formed sensor per geometry, in order, each on the map grid with a 25 × 25 map size |
| `Visualizer.Init` | visualizer.py:15-58 | setup starts in joystick mode at pose (0.5, 0.1, π/6) with the eight sensors mounted in order |
| `Visualizer.Readings` | visualizer.py:82-84 | one reading per sensor, in mount order, all taken at the current pose; on 8-bit maps each lies in [0, 1] |
| `Visualizer.SelectCommand` | visualizer.py:87-91 | in controller mode the command is the controller's for these readings; in joystick mode it stays within the joystick's limits whenever the published command does |
| `Visualizer.OnTimer` | visualizer.py:80-94 | a tick keeps the mode and the sensors and leaves the state well formed |
| `Visualizer.ManualTickFollowsJoystick` | visualizer.py:88-94 | in joystick mode the tick applies the joystick's published command for one step, and the controller plays no part |
| `Visualizer.AutoTickFollowsController` | visualizer.py:87-94 | in controller mode the tick applies the controller to this tick's readings, and the joystick plays no part |
| `Visualizer.AutoTickCircles` | control.py:26-27 | with the program's circle controller (built at visualizer.py:61), a tick in controller mode applies (10, 30) whatever the sensors read |
| `Visualizer.StepLoop` | game_pad.py:70-102 | a poll cycle delivers its released buttons to the mode callback, leaves the pose alone and installs the reader the poll cycle produced; a tick is exactly one timer tick with the current reader, delivers no buttons and leaves the reader alone; either way the mode is the starting mode toggled by the delivered buttons |
| `Visualizer.PollThenTickAppliesStick` | game_pad.py:89-102 | in joystick mode, a poll of an attached stick followed by a tick moves the robot one step by exactly the command shaped from that stick, provided the poll's releases leave the mode in joystick mode |
| `Visualizer.RunSteps` | visualizer.py:80-94 | an interleaving of timer ticks and joystick poll cycles keeps the sensors, the reader's configuration and a well-formed state |
| `Visualizer.ModeFollowsPresses` | visualizer.py:36-44 | over any run of ticks and poll cycles, the mode is the starting mode toggled by the buttons delivered along the way, in order |
| `Visualizer.CallbackSeesEveryRelease` | game_pad.py:75-78 | with the callback registered and a threshold below 1, a run delivers exactly the released buttons of all polled events, once each and in order, and the reader stays alive |
| `Visualizer.StartModeFollowsPolledPresses` | visualizer.py:36-46 | from the program's initial state and a freshly started reader with the callback registered, a run ends in controller mode exactly when button 0 was released an odd number of times in the polled events |
| `Visualizer.Ticks` | visualizer.py:103-105 | repeated timer ticks keep the mode and the sensors |
| `Visualizer.ManualTicksIntegrateJoystick` | visualizer.py:91-94 | in joystick mode with the unicycle model, n ticks integrate the joystick's command n times with step 0.01 |

## Left out

- Threads, the lock, `start`, `stop` and `join` are not modelled. A poll
  cycle is a pure step (`PollCycle`). The two threads' interleaving is a
  sequence of timer ticks and poll cycles (`RunSteps`). The `_running`
  flag and stopping are not modelled.
- `Visualizer.Ticks` and `Visualizer.ManualTicksIntegrateJoystick` hold
  the reader fixed: they describe ticks with no poll cycle in between.
  `RunSteps` covers interleaved polls.
- A poll cycle is atomic in the model. In the program the callback flips
  `state` without the lock (visualizer.py:36-44) before the same cycle
  publishes its command (game_pad.py:100-102). A tick in between reads the
  new mode (visualizer.py:88) with the previous command (visualizer.py:91).
  `RunSteps` cannot represent that interleaving.
- `Visualizer.ManualTicksIntegrateJoystick` uses the unicycle model
  (`Visualizer.Unicycle`), reading the joystick's steering angle in
  degrees as a turn rate. The program never drives that configuration.
- pygame is not modelled: initialisation, the device count check in
  `start`, and event pumping. The device and the drained events are
  parameters. So are the two clock readings that `_loop` takes. Sleeping
  is not modelled, because only its effect on the deadline matters.
- The map image is not loaded. The grid is given as integer grey levels.
  The program's float32 division by 255 and float32 averaging are
  modelled as exact real arithmetic: the reading is the level sum divided
  by count × 255.
- All arithmetic is exact over the reals, not IEEE floating point. The
  signed zero of `math.copysign` is not modelled.
- Cosine and sine are uninterpreted. Lemmas that need cos² + sin² = 1
  take it as a hypothesis.
- The vehicle model the visualizer drives (`AckermanSteerKinematics`) is
  not defined in kinematics.py and is not part of this model. The tick
  takes it as a `MotionLaw` parameter. The unicycle `Kinematics.Update`
  is one instance.
- The loop takes the controller as an opaque function from the readings
  to a command (`Visualizer.Controller`). The program builds control.py's
  `CircleController(velocity=10.0, steering_angle=30)` (visualizer.py:61).
  That controller ignores the readings and returns its constructor pair.
  `Visualizer.CircleController` is that instance. control.py's base class
  `Controller` only declares the interface and is not modelled.
- Left out because they neither feed the pose nor feed the readings:
  - drawing: `draw_sensor`, robot.py, matplotlib;
  - the module-level `velocity` and `steer_angle`;
  - printing;
  - the `__main__` examples.
- `Visualizer.OnTimer` does not state the new pose in its own contract.
  The pose depends on the motion law. `ManualTickFollowsJoystick` and
  `AutoTickFollowsController` state it for each mode.
- `Sensor.ValueIsMaskedMean` requires a non-negative radius, and
  `Sensor.GetSensorValue` states the masked mean only for a non-negative
  diameter. With a negative one, the program's bounding box can
  miss cells that the squared-distance mask still selects.

=== FILE: gamepad.dfy ===
/** The joystick reader: deadzone shaping, clamping, axis reads, the
    command published by one poll cycle, and the poll scheduler's
    deadline rule. Threads, the lock and pygame are not modelled; a poll
    cycle is a pure function of the device, the pending events and the
    two clock readings the loop takes. */
module GamePad {
  import opened Wrappers
  import opened RealArith

  function Abs(x: real): real {
    if x < 0.0 then -x else x
  }

  /** `math.copysign(m, v)`: the magnitude of `m` with the sign of `v`
      (signed zeros are not modelled, so `v == 0` counts as positive). */
  function CopySign(m: real, v: real): (r: real)
    ensures Abs(r) == Abs(m)
    ensures v < 0.0 ==> r <= 0.0
    ensures v >= 0.0 ==> r >= 0.0
  {
    if v < 0.0 then -Abs(m) else Abs(m)
  }

  // ---------------------------------------------------------------------
  // Deadzone and clamp

  /** Width of the live band [dz, 1] that the deadzone stretches onto [0, 1]. */
  function Width(dz: real): real {
    1.0 - dz
  }

  /** Scaled deadzone. `None` is the division by zero the program raises
      when the threshold is exactly 1 and the input lies outside it. */
  function ApplyDeadzone(v: real, dz: real): (r: Option<real>)
    ensures r.None? <==> Abs(v) > dz && dz == 1.0
    ensures r.Some? ==> (r.value == 0.0 <==> Abs(v) <= dz)
    ensures r.Some? && Abs(v) > dz ==> (r.value < 0.0 <==> v < 0.0)
  {
    var a := Abs(v);
    if a <= dz then Some(0.0)
    else if Width(dz) == 0.0 then None
    else Some(CopySign((a - dz) / Width(dz), v))
  }

  /** The soft threshold the deadzone is a rescaling of: zero inside the
      band, shifted towards zero by `dz` outside it. */
  ghost function Shrink(v: real, dz: real): real {
    if Abs(v) <= dz then 0.0 else if v < 0.0 then v + dz else v - dz
  }

  lemma DeadzoneIsScaledShrink(v: real, dz: real)
    requires dz < 1.0
    ensures ApplyDeadzone(v, dz).Some?
    ensures ApplyDeadzone(v, dz).value * Width(dz) == Shrink(v, dz)
  {
    if Abs(v) > dz {
      DivCancel(Abs(v) - dz, Width(dz));
    }
  }

  /** Order and differences of scaled values carry over to the values. */
  lemma UnscaleOrder(a: real, b: real, k: real, sa: real, sb: real)
    requires k > 0.0 && a * k == sa && b * k == sb && sa <= sb
    ensures a <= b
    ensures (b - a) * k == sb - sa
  {
    ScaleOrder(a, b, k);
  }

  /** A step between scaled values bounds the step between the values. */
  lemma ScaledStep(a: real, b: real, k: real, sa: real, sb: real, d: real)
    requires k > 0.0 && a * k == sa && b * k == sb && sa <= sb <= sa + d
    ensures a <= b && (b - a) * k <= d
  {
    UnscaleOrder(a, b, k, sa, sb);
  }

  /** Bounds on a scaled value carry over to the value. */
  lemma UnitBounds(f: real, s: real, k: real)
    requires k > 0.0 && f * k == s
    ensures -k <= s <= k ==> -1.0 <= f <= 1.0
    ensures s == k ==> f == 1.0
    ensures s == -k ==> f == -1.0
  {
    ScaleOrder(f, 1.0, k);
    ScaleOrder(-1.0, f, k);
    ScaleOrder(1.0, f, k);
    ScaleOrder(f, -1.0, k);
  }

  lemma ShrinkMonotone(v: real, w: real, dz: real)
    requires 0.0 <= dz
    requires v <= w
    ensures Shrink(v, dz) <= Shrink(w, dz) <= Shrink(v, dz) + (w - v)
  {
  }

  /** Full deflection maps to full output. */
  lemma DeadzoneEndpoints(dz: real)
    requires 0.0 <= dz < 1.0
    ensures ApplyDeadzone(1.0, dz) == Some(1.0)
    ensures ApplyDeadzone(-1.0, dz) == Some(-1.0)
  {
    DeadzoneIsScaledShrink(1.0, dz);
    UnitBounds(ApplyDeadzone(1.0, dz).value, Shrink(1.0, dz), Width(dz));
    DeadzoneIsScaledShrink(-1.0, dz);
    UnitBounds(ApplyDeadzone(-1.0, dz).value, Shrink(-1.0, dz), Width(dz));
  }

  /** Inputs within [-1, 1] stay within [-1, 1]. */
  lemma DeadzoneRange(v: real, dz: real)
    requires 0.0 <= dz < 1.0
    requires Abs(v) <= 1.0
    ensures -1.0 <= ApplyDeadzone(v, dz).value <= 1.0
  {
    DeadzoneIsScaledShrink(v, dz);
    UnitBounds(ApplyDeadzone(v, dz).value, Shrink(v, dz), Width(dz));
  }

  /** The shaped axis is monotone and has no jump anywhere, in particular
      none at the band's edge: between v and w it rises by at most
      (w - v) / (1 - dz). */
  lemma DeadzoneContinuous(v: real, w: real, dz: real)
    requires 0.0 <= dz < 1.0
    requires v <= w
    ensures ApplyDeadzone(v, dz).value <= ApplyDeadzone(w, dz).value
    ensures (ApplyDeadzone(w, dz).value - ApplyDeadzone(v, dz).value) * Width(dz) <= w - v
  {
    DeadzoneIsScaledShrink(v, dz);
    DeadzoneIsScaledShrink(w, dz);
    ShrinkMonotone(v, w, dz);
    ScaledStep(ApplyDeadzone(v, dz).value, ApplyDeadzone(w, dz).value, Width(dz), Shrink(v, dz), Shrink(w, dz), w - v);
  }

  /** `max(lo, min(hi, x))`. */
  function Clamp(x: real, lo: real, hi: real): (r: real)
    ensures lo <= hi ==> lo <= r <= hi
    ensures lo <= x <= hi ==> r == x
    ensures hi < lo ==> r == lo
  {
    var m := if hi <= x then hi else x;
    if lo >= m then lo else m
  }

  /** Within a non-empty range the clamp is the nearest admissible value. */
  lemma ClampIsNearest(x: real, lo: real, hi: real, y: real)
    requires lo <= y <= hi
    ensures Abs(x - Clamp(x, lo, hi)) <= Abs(x - y)
  {
  }

  // ---------------------------------------------------------------------
  // Configuration, device and axis reads

  /** The reader's configuration; `period` is `1 / rate_hz`. */
  datatype Config = Config(
    jsIndex: int,
    axisThrottle: int,
    axisSteer: int,
    vmax: real,
    steerMaxDeg: real,
    deadzone: real,
    period: real)

  /** The constructor; `None` is the division by zero a zero rate raises. */
  function NewConfig(jsIndex: int, axisThrottle: int, axisSteer: int, vmax: real,
                     steerMaxDeg: real, deadzone: real, rateHz: real): (r: Option<Config>)
    ensures r.None? <==> rateHz == 0.0
    ensures r.Some? ==> r.value.period * rateHz == 1.0
    ensures r.Some? ==> r.value.vmax == vmax && r.value.steerMaxDeg == steerMaxDeg && r.value.deadzone == deadzone
    ensures r.Some? ==> r.value.jsIndex == jsIndex && r.value.axisThrottle == axisThrottle && r.value.axisSteer == axisSteer
  {
    if rateHz == 0.0 then None
    else Some(Config(jsIndex, axisThrottle, axisSteer, vmax, steerMaxDeg, deadzone, 1.0 / rateHz))
  }

  /** An opened joystick: its axis values, and whether it is still
      attached (a detached device raises on every query). */
  datatype Device = Device(axes: seq<real>, attached: bool)

  datatype AxisRead = Value(value: real) | Raised

  /** Reads one axis: 0 without a device or for an index outside
      [0, number of axes); `Raised` when the device query fails. */
  function SafeAxis(js: Option<Device>, idx: int): (r: AxisRead)
    ensures js.None? ==> r == Value(0.0)
    ensures r.Raised? <==> js.Some? && !js.value.attached
    ensures js.Some? && !(0 <= idx < |js.value.axes|) && r.Value? ==> r.value == 0.0
    ensures js.Some? && js.value.attached && 0 <= idx < |js.value.axes| ==> r == Value(js.value.axes[idx])
    ensures r.Value? && r.value != 0.0 ==> js.Some? && 0 <= idx < |js.value.axes| && r.value == js.value.axes[idx]
  {
    if js.None? then Value(0.0)
    else if !js.value.attached then Raised
    else if idx < 0 || idx >= |js.value.axes| then Value(0.0)
    else Value(js.value.axes[idx])
  }

  /** The two raw axes of a poll cycle; a failing read zeroes both. */
  function ReadAxes(cfg: Config, js: Option<Device>): (r: (real, real))
    ensures js.Some? && !js.value.attached ==> r == (0.0, 0.0)
    ensures js.None? ==> r == (0.0, 0.0)
    ensures js.Some? && js.value.attached && 0 <= cfg.axisThrottle < |js.value.axes| ==> r.0 == js.value.axes[cfg.axisThrottle]
    ensures js.Some? && js.value.attached && 0 <= cfg.axisSteer < |js.value.axes| ==> r.1 == js.value.axes[cfg.axisSteer]
    ensures js.Some? && js.value.attached && !(0 <= cfg.axisThrottle < |js.value.axes|) ==> r.0 == 0.0
    ensures js.Some? && js.value.attached && !(0 <= cfg.axisSteer < |js.value.axes|) ==> r.1 == 0.0
  {
    var t := SafeAxis(js, cfg.axisThrottle);
    var s := SafeAxis(js, cfg.axisSteer);
    if t.Raised? || s.Raised? then (0.0, 0.0) else (t.value, s.value)
  }

  // ---------------------------------------------------------------------
  // Command shaping

  /** Linear velocity and steering angle in degrees. */
  datatype Command = Command(linVel: real, steerDeg: real)

  predicate Bounded(cfg: Config, cmd: Command) {
    Abs(cmd.linVel) <= Abs(cfg.vmax) && Abs(cmd.steerDeg) <= Abs(cfg.steerMaxDeg)
  }

  /** Invert a shaped axis, scale it to its limit and clamp it there. */
  function Drive(f: real, limit: real): (r: real)
    ensures Abs(r) <= Abs(limit)
    ensures limit >= 0.0 ==> -limit <= r <= limit
  {
    Clamp(-f * limit, -limit, limit)
  }

  /** Deadzone both axes, invert them, scale and clamp. */
  function MapAxes(cfg: Config, rawThrottle: real, rawSteer: real): (r: Option<Command>)
    ensures r.None? <==> cfg.deadzone == 1.0 && (Abs(rawThrottle) > 1.0 || Abs(rawSteer) > 1.0)
    ensures r.Some? ==> Bounded(cfg, r.value)
    ensures r.Some? && cfg.vmax >= 0.0 ==> -cfg.vmax <= r.value.linVel <= cfg.vmax
    ensures r.Some? && cfg.steerMaxDeg >= 0.0 ==> -cfg.steerMaxDeg <= r.value.steerDeg <= cfg.steerMaxDeg
  {
    var t :- ApplyDeadzone(rawThrottle, cfg.deadzone);
    var s :- ApplyDeadzone(rawSteer, cfg.deadzone);
    Some(Command(Drive(t, cfg.vmax), Drive(s, cfg.steerMaxDeg)))
  }

  /** Both outputs are sign-inverted relative to their raw axes, and zero
      exactly inside the deadzone. */
  lemma CommandInvertsAxes(cfg: Config, rawThrottle: real, rawSteer: real)
    requires 0.0 <= cfg.deadzone < 1.0 && cfg.vmax > 0.0 && cfg.steerMaxDeg > 0.0
    ensures MapAxes(cfg, rawThrottle, rawSteer).Some?
    ensures var c := MapAxes(cfg, rawThrottle, rawSteer).value;
      && (c.linVel < 0.0 <==> rawThrottle > cfg.deadzone)
      && (c.linVel > 0.0 <==> rawThrottle < -cfg.deadzone)
      && (c.steerDeg < 0.0 <==> rawSteer > cfg.deadzone)
      && (c.steerDeg > 0.0 <==> rawSteer < -cfg.deadzone)
  {
    var t := ApplyDeadzone(rawThrottle, cfg.deadzone).value;
    var s := ApplyDeadzone(rawSteer, cfg.deadzone).value;
    var c := MapAxes(cfg, rawThrottle, rawSteer).value;
    if t > 0.0 {
      assert -t * cfg.vmax < 0.0;
    } else if t < 0.0 {
      assert -t * cfg.vmax > 0.0;
    }
    if s > 0.0 {
      assert -s * cfg.steerMaxDeg < 0.0;
    } else if s < 0.0 {
      assert -s * cfg.steerMaxDeg > 0.0;
    }
  }

  /** A shaped value in [-1, 1] is driven proportionally: inverted and
      scaled, it already lies within the limit, so the clamp returns it. */
  lemma DriveProportional(f: real, limit: real)
    requires -1.0 <= f <= 1.0 && limit >= 0.0
    ensures Drive(f, limit) == -f * limit
  {
    var x := -f * limit;
    if limit > 0.0 {
      ScaleOrder(f, 1.0, limit);
      ScaleOrder(-1.0, f, limit);
      assert f * limit <= 1.0 * limit;
      assert -1.0 * limit <= f * limit;
      assert x == -(f * limit);
    } else {
      assert x == 0.0;
    }
    assert -limit <= x <= limit;
  }

  /** A nominal stick position, deadzoned and driven, is proportional. */
  lemma ShapedAxisDriven(v: real, dz: real, limit: real)
    requires 0.0 <= dz < 1.0 && Abs(v) <= 1.0 && limit >= 0.0
    ensures Drive(ApplyDeadzone(v, dz).value, limit) == -ApplyDeadzone(v, dz).value * limit
  {
    DeadzoneRange(v, dz);
    DriveProportional(ApplyDeadzone(v, dz).value, limit);
  }

  /** On nominal stick positions the command is proportional: the shaped
      axes, inverted, times the limits; the clamp never bites. */
  lemma MapAxesScales(cfg: Config, rawThrottle: real, rawSteer: real)
    requires 0.0 <= cfg.deadzone < 1.0 && cfg.vmax >= 0.0 && cfg.steerMaxDeg >= 0.0
    requires Abs(rawThrottle) <= 1.0 && Abs(rawSteer) <= 1.0
    ensures MapAxes(cfg, rawThrottle, rawSteer).Some?
    ensures MapAxes(cfg, rawThrottle, rawSteer).value.linVel == -ApplyDeadzone(rawThrottle, cfg.deadzone).value * cfg.vmax
    ensures MapAxes(cfg, rawThrottle, rawSteer).value.steerDeg == -ApplyDeadzone(rawSteer, cfg.deadzone).value * cfg.steerMaxDeg
  {
    ShapedAxisDriven(rawThrottle, cfg.deadzone, cfg.vmax);
    ShapedAxisDriven(rawSteer, cfg.deadzone, cfg.steerMaxDeg);
  }

  /** Full deflection of a stick reaches the configured limits. */
  lemma FullDeflectionReachesLimits(cfg: Config)
    requires 0.0 <= cfg.deadzone < 1.0 && cfg.vmax >= 0.0 && cfg.steerMaxDeg >= 0.0
    ensures MapAxes(cfg, -1.0, -1.0) == Some(Command(cfg.vmax, cfg.steerMaxDeg))
    ensures MapAxes(cfg, 1.0, 1.0) == Some(Command(-cfg.vmax, -cfg.steerMaxDeg))
  {
    DeadzoneEndpoints(cfg.deadzone);
  }

  // ---------------------------------------------------------------------
  // Scheduling

  /** The deadline rule at the end of a cycle: advance by one period; if
      that is not in the future at `now`, reset to the clock read again
      (`nowAgain`). */
  function NextDeadline(nextT: real, period: real, now: real, nowAgain: real): (r: real)
    ensures now <= nowAgain ==> r >= now
    ensures now <= nowAgain ==> r >= nextT + period
    ensures r == nextT + period || (r == nowAgain && nextT + period <= now)
    ensures nextT + period - now <= 0.0 ==> r == nowAgain
  {
    var next := nextT + period;
    var delay := next - now;
    if delay > 0.0 then next else nowAgain
  }

  /** Consecutive clock readings of a run of cycles. */
  predicate Monotone(clocks: seq<(real, real)>) {
    forall i :: 0 <= i < |clocks| ==> clocks[i].0 <= clocks[i].1
  }

  function Deadline(start: real, period: real, clocks: seq<(real, real)>): real
    decreases |clocks|
  {
    if |clocks| == 0 then start
    else Deadline(NextDeadline(start, period, clocks[0].0, clocks[0].1), period, clocks[1..])
  }

  /** Resetting instead of catching up: after n cycles the deadline is at
      least n periods past the start, so cycles never burst. */
  lemma {:induction false} ScheduleNeverBursts(start: real, period: real, clocks: seq<(real, real)>)
    requires Monotone(clocks)
    ensures Deadline(start, period, clocks) >= start + |clocks| as real * period
    ensures |clocks| > 0 ==> Deadline(start, period, clocks) >= clocks[|clocks| - 1].0
    decreases |clocks|
  {
    if |clocks| > 0 {
      var next := NextDeadline(start, period, clocks[0].0, clocks[0].1);
      var rest := clocks[1..];
      assert Monotone(rest) by {
        forall i | 0 <= i < |rest| ensures rest[i].0 <= rest[i].1 {
          assert rest[i] == clocks[i + 1];
        }
      }
      ScheduleNeverBursts(next, period, rest);
      assert start + |clocks| as real * period == start + period + |rest| as real * period;
      if |rest| > 0 {
        assert rest[|rest| - 1] == clocks[|clocks| - 1];
      }
    }
  }

  // ---------------------------------------------------------------------
  // Poll cycle

  datatype Event = ButtonUp(button: int) | OtherEvent

  /** The buttons whose release events a cycle drains, in arrival order. */
  function ReleasedButtons(events: seq<Event>): (r: seq<int>)
    ensures |r| <= |events|
    ensures |events| == 1 ==> r == (if events[0].ButtonUp? then [events[0].button] else [])
  {
    if |events| == 0 then []
    else (if events[0].ButtonUp? then [events[0].button] else []) + ReleasedButtons(events[1..])
  }

  /** Draining two batches reports the releases of the first, then those
      of the second; with the single-event case above this fixes the
      result: each release once, in arrival order. */
  lemma {:induction false} ReleasedButtonsConcat(a: seq<Event>, b: seq<Event>)
    ensures ReleasedButtons(a + b) == ReleasedButtons(a) + ReleasedButtons(b)
    decreases |a|
  {
    if |a| > 0 {
      assert (a + b)[0] == a[0];
      assert (a + b)[1..] == a[1..] + b;
      ReleasedButtonsConcat(a[1..], b);
    } else {
      assert a + b == b;
    }
  }

  /** The reader's shared state: the published command, the next poll
      deadline, whether a button callback is registered, and whether the
      polling thread is still alive (an uncaught exception ends it). */
  datatype Reader = Reader(cfg: Config, hasCallback: bool, published: Command, nextT: real, alive: bool)

  function NewReader(cfg: Config, hasCallback: bool, start: real): (r: Reader)
    ensures r.alive && Bounded(cfg, r.published) && r.published.linVel == 0.0 && r.published.steerDeg == 0.0
    ensures r.cfg == cfg && r.hasCallback == hasCallback && r.nextT == start
  {
    Reader(cfg, hasCallback, Command(0.0, 0.0), start, true)
  }

  /** `get_steering`: the last published (velocity, steering) pair, which
      stays within the configured limits whenever the command is. */
  function GetSteering(rd: Reader): (r: (real, real))
    ensures Bounded(rd.cfg, rd.published) ==> Abs(r.0) <= Abs(rd.cfg.vmax) && Abs(r.1) <= Abs(rd.cfg.steerMaxDeg)
    ensures Bounded(rd.cfg, Command(r.0, r.1)) <==> Bounded(rd.cfg, rd.published)
  {
    (rd.published.linVel, rd.published.steerDeg)
  }

  datatype PollResult = PollResult(reader: Reader, callbacks: seq<int>)

  /** One iteration of the polling loop: dispatch the released buttons to
      the callback, read and shape the axes, publish, and schedule. */
  function PollCycle(rd: Reader, js: Option<Device>, events: seq<Event>, now: real, nowAgain: real): (r: PollResult)
    ensures !rd.alive ==> r.reader == rd && r.callbacks == []
    ensures rd.alive && rd.hasCallback ==> r.callbacks == ReleasedButtons(events)
    ensures !rd.hasCallback ==> r.callbacks == []
    ensures r.reader.cfg == rd.cfg && r.reader.hasCallback == rd.hasCallback
    ensures Bounded(rd.cfg, rd.published) ==> Bounded(r.reader.cfg, r.reader.published)
    ensures r.reader.alive && rd.alive && now <= nowAgain ==> r.reader.nextT >= now && r.reader.nextT >= rd.nextT + rd.cfg.period
    ensures !r.reader.alive ==> r.reader.published == rd.published
    ensures rd.alive ==> (r.reader.alive <==> MapAxes(rd.cfg, ReadAxes(rd.cfg, js).0, ReadAxes(rd.cfg, js).1).Some?)
    ensures rd.alive && r.reader.alive ==> r.reader.nextT == NextDeadline(rd.nextT, rd.cfg.period, now, nowAgain)
  {
    if !rd.alive then PollResult(rd, [])
    else
      var callbacks := if rd.hasCallback then ReleasedButtons(events) else [];
      var (rawThrottle, rawSteer) := ReadAxes(rd.cfg, js);
      match MapAxes(rd.cfg, rawThrottle, rawSteer)
      case None => PollResult(rd.(alive := false), callbacks)
      case Some(cmd) =>
        PollResult(rd.(published := cmd, nextT := NextDeadline(rd.nextT, rd.cfg.period, now, nowAgain)), callbacks)
  }

  /** A device that disappears mid-poll makes the cycle publish a zero
      command rather than fail. */
  lemma DetachedDevicePublishesZero(rd: Reader, axes: seq<real>, events: seq<Event>, now: real, nowAgain: real)
    requires rd.alive && rd.cfg.deadzone >= 0.0 && rd.cfg.vmax >= 0.0 && rd.cfg.steerMaxDeg >= 0.0
    ensures var r := PollCycle(rd, Some(Device(axes, false)), events, now, nowAgain).reader;
      r.alive && GetSteering(r) == (0.0, 0.0)
  {
  }

  /** A live cycle on an attached device publishes the shaped stick
      position: both configured axes deadzoned, inverted, scaled and
      clamped. With a threshold below 1 shaping never fails, so the
      reader stays alive. */
  lemma LiveCyclePublishesStick(rd: Reader, axes: seq<real>, events: seq<Event>, now: real, nowAgain: real)
    requires rd.alive && 0.0 <= rd.cfg.deadzone < 1.0
    requires 0 <= rd.cfg.axisThrottle < |axes| && 0 <= rd.cfg.axisSteer < |axes|
    ensures var r := PollCycle(rd, Some(Device(axes, true)), events, now, nowAgain).reader;
      && r.alive
      && r.published == MapAxes(rd.cfg, axes[rd.cfg.axisThrottle], axes[rd.cfg.axisSteer]).value
  {
  }
}

=== FILE: kinematics.dfy ===
/** Unicycle (tank-steer) kinematics. The engine object only holds a
    pose, so it is represented by that pose: `Update` returns the pose the
    in-place update leaves behind. */
module Kinematics {
  import opened Trigonometry

  /** Position and heading (radians, never wrapped). */
  datatype State = State(x: real, y: real, theta: real)

  /** The time step `update` uses when none is given. */
  const DefaultDt: real := 0.1

  /** `get_state`: a snapshot `(x, y, theta)` from which the state can be
      rebuilt. */
  function GetState(s: State): (r: (real, real, real))
    ensures State(r.0, r.1, r.2) == s
  {
    (s.x, s.y, s.theta)
  }

  /** A new engine starts at the origin, heading along the x axis. */
  function New(): (s: State)
    ensures GetState(s) == (0.0, 0.0, 0.0)
  {
    State(0.0, 0.0, 0.0)
  }

  /** One integration step, written in the program's order: x, then y
      (both from the heading before the step), then the heading. */
  function Update(s: State, linearVelocity: real, angularVelocity: real, dt: real, trig: Trig): (r: State)
    ensures linearVelocity == 0.0 && angularVelocity == 0.0 ==> r == s
    ensures angularVelocity == 0.0 ==> r.theta == s.theta
  {
    var s1 := s.(x := s.x + linearVelocity * dt * trig.cos(s.theta));
    var s2 := s1.(y := s1.y + linearVelocity * dt * trig.sin(s1.theta));
    s2.(theta := s2.theta + angularVelocity * dt)
  }

  /** The heading advances by exactly ω·dt, whatever the linear velocity. */
  lemma HeadingStep(s: State, v1: real, v2: real, w: real, dt: real, trig: Trig)
    ensures Update(s, v1, w, dt, trig).theta == Update(s, v2, w, dt, trig).theta == s.theta + w * dt
  {
  }

  /** The position step does not depend on the angular velocity: x and y
      are advanced along the heading held before the step. */
  lemma PositionUsesPriorHeading(s: State, v: real, w1: real, w2: real, dt: real, trig: Trig)
    ensures Update(s, v, w1, dt, trig).x == Update(s, v, w2, dt, trig).x
    ensures Update(s, v, w1, dt, trig).y == Update(s, v, w2, dt, trig).y
    ensures Update(s, v, w1, dt, trig).x - s.x == v * dt * trig.cos(s.theta)
    ensures Update(s, v, w1, dt, trig).y - s.y == v * dt * trig.sin(s.theta)
  {
  }

  /** A sequence of `(linear, angular)` commands applied in order. */
  function Run(s: State, cmds: seq<(real, real)>, dt: real, trig: Trig): State
    decreases |cmds|
  {
    if |cmds| == 0 then s
    else Run(Update(s, cmds[0].0, cmds[0].1, dt, trig), cmds[1..], dt, trig)
  }

  /** `n` copies of one command. */
  function Repeat(cmd: (real, real), n: nat): (r: seq<(real, real)>)
    ensures |r| == n
    ensures forall i :: 0 <= i < n ==> r[i] == cmd
  {
    if n == 0 then [] else [cmd] + Repeat(cmd, n - 1)
  }

  /** Total angular velocity of a command sequence. */
  function AngularSum(cmds: seq<(real, real)>): real
    decreases |cmds|
  {
    if |cmds| == 0 then 0.0 else cmds[0].1 + AngularSum(cmds[1..])
  }

  /** No drift at rest: zero commands never move the vehicle. */
  lemma {:induction false} RestIsStationary(s: State, n: nat, dt: real, trig: Trig)
    ensures Run(s, Repeat((0.0, 0.0), n), dt, trig) == s
    decreases n
  {
    if n > 0 {
      var cmds := Repeat((0.0, 0.0), n);
      assert cmds[1..] == Repeat((0.0, 0.0), n - 1);
      RestIsStationary(s, n - 1, dt, trig);
    }
  }

  /** The final heading is the initial one plus dt times the summed
      angular velocities, independent of the linear velocities. */
  lemma {:induction false} HeadingAccumulates(s: State, cmds: seq<(real, real)>, dt: real, trig: Trig)
    ensures Run(s, cmds, dt, trig).theta == s.theta + dt * AngularSum(cmds)
    decreases |cmds|
  {
    if |cmds| > 0 {
      var s' := Update(s, cmds[0].0, cmds[0].1, dt, trig);
      HeadingAccumulates(s', cmds[1..], dt, trig);
      assert dt * AngularSum(cmds) == cmds[0].1 * dt + dt * AngularSum(cmds[1..]);
    }
  }

  /** Straight-line motion: with no turning, n steps advance the position
      n times along the initial heading. */
  lemma {:induction false} StraightLine(s: State, v: real, n: nat, dt: real, trig: Trig)
    ensures Run(s, Repeat((v, 0.0), n), dt, trig)
         == State(s.x + n as real * (v * dt * trig.cos(s.theta)),
                  s.y + n as real * (v * dt * trig.sin(s.theta)),
                  s.theta)
    decreases n
  {
    if n > 0 {
      var cmds := Repeat((v, 0.0), n);
      assert cmds[1..] == Repeat((v, 0.0), n - 1);
      var s' := Update(s, v, 0.0, dt, trig);
      assert s'.theta == s.theta;
      StraightLine(s', v, n - 1, dt, trig);
      var dx, dy := v * dt * trig.cos(s.theta), v * dt * trig.sin(s.theta);
      assert n as real * dx == dx + (n - 1) as real * dx;
      assert n as real * dy == dy + (n - 1) as real * dy;
    }
  }

  /** Ten steps of unit speed at dt = 0.1 from the origin end at (1, 0, 0),
      given cos 0 = 1 and sin 0 = 0. */
  lemma TenStepsFromOrigin(trig: Trig)
    requires trig.cos(0.0) == 1.0 && trig.sin(0.0) == 0.0
    ensures Run(New(), Repeat((1.0, 0.0), 10), DefaultDt, trig) == State(1.0, 0.0, 0.0)
  {
    StraightLine(New(), 1.0, 10, DefaultDt, trig);
  }
}

=== FILE: realarith.dfy ===
/** Small facts about real multiplication and division that the solver
    does not find on its own when the factors are compound terms. Each
    is stated over plain variables, so callers pass the atoms they need. */
module RealArith {

  lemma PositiveProduct(a: real, b: real)
    requires a > 0.0 && b > 0.0
    ensures a * b > 0.0
  {
  }

  /** Multiplying by a positive factor preserves order. */
  lemma ScaleOrder(a: real, b: real, k: real)
    requires k > 0.0
    ensures a <= b <==> a * k <= b * k
  {
    assert b * k - a * k == (b - a) * k;
    if a < b {
      PositiveProduct(b - a, k);
    } else if a > b {
      PositiveProduct(a - b, k);
    }
  }

  lemma DivCancel(x: real, y: real)
    requires y != 0.0
    ensures (x / y) * y == x
    ensures y > 0.0 && x > 0.0 ==> x / y > 0.0
  {
  }

  /** Converting a product of integers to a real multiplies the conversions. */
  lemma CastProduct(a: int, b: int)
    ensures (a * b) as real == a as real * b as real
  {
  }

  /** Squaring preserves the order of non-negative reals. */
  lemma SquareOrder(x: real, y: real)
    requires x >= 0.0 && y >= 0.0
    ensures x <= y <==> x * x <= y * y
  {
    var d, e := y - x, y + x;
    assert y * y - x * x == d * e;
    if x < y {
      PositiveProduct(d, e);
    } else if y < x {
      PositiveProduct(-d, e);
      assert (-d) * e == -(d * e);
    }
  }
}

=== FILE: sensor.dfy ===
/** The light sensor: a circular window on a greyscale map, read as the
    mean intensity of the cells whose integer corner point (col, row)
    falls inside the circle.

    Reading goes: body frame -> world (rotation by the pose's heading),
    world -> pixel (y flipped, radius scaled horizontally), integer
    bounding box, clip to the grid, circular mask, mean. The reference
    definition `GridTally` masks the WHOLE grid; `ValueIsMaskedMean`
    shows the bounding box and the clip never change the answer. */
module Sensor {
  import opened Wrappers
  import opened Trigonometry
  import opened RealArith

  // ---------------------------------------------------------------------
  // Grid, circle, box

  /** Grey levels of an 8-bit greyscale image, indexed `cells[row][col]`,
      `height` rows of `width`. The intensity of a cell is its level
      divided by `MaxLevel`. */
  datatype Grid = Grid(cells: seq<seq<int>>, width: nat, height: nat) {
    predicate Valid() {
      |cells| == height && forall row :: 0 <= row < height ==> |cells[row]| == width
    }

    /** Every level is one a greyscale conversion can produce. */
    predicate EightBit()
      requires Valid()
    {
      forall row, col :: 0 <= row < height && 0 <= col < width ==> 0 <= cells[row][col] <= MaxLevel
    }

    predicate InBounds(col: int, row: int) {
      0 <= col < width && 0 <= row < height
    }
  }

  /** The brightest grey level. */
  const MaxLevel: int := 255

  /** A grey level as an intensity; levels 0 and `MaxLevel` give 0 and 1. */
  function Intensity(level: int): real {
    level as real / MaxLevel as real
  }

  /** A circle in pixel coordinates. */
  datatype Circle = Circle(cx: real, cy: real, r: real) {
    /** The mask test on the integer corner point (col, row) of a cell. */
    predicate Covers(col: int, row: int) {
      (col as real - cx) * (col as real - cx) + (row as real - cy) * (row as real - cy) <= r * r
    }
  }

  /** An inclusive integer box of columns [xMin, xMax] and rows [yMin, yMax]. */
  datatype Box = Box(xMin: int, xMax: int, yMin: int, yMax: int) {
    predicate Contains(col: int, row: int) {
      xMin <= col <= xMax && yMin <= row <= yMax
    }

    predicate IsEmpty() {
      xMin > xMax || yMin > yMax
    }
  }

  function Floor(x: real): (r: int)
    ensures r as real <= x < r as real + 1.0
  {
    x.Floor
  }

  function Ceil(x: real): (r: int)
    ensures x <= r as real < x + 1.0
  {
    -((-x).Floor)
  }

  /** The box `floor(c - r) .. ceil(c + r)` on both axes: the tightest
      integer box around the circle's extent. */
  function BoundingBox(c: Circle): (b: Box)
    ensures b.xMin as real <= c.cx - c.r < b.xMin as real + 1.0
    ensures c.cx + c.r <= b.xMax as real < c.cx + c.r + 1.0
    ensures b.yMin as real <= c.cy - c.r < b.yMin as real + 1.0
    ensures c.cy + c.r <= b.yMax as real < c.cy + c.r + 1.0
  {
    Box(Floor(c.cx - c.r), Ceil(c.cx + c.r), Floor(c.cy - c.r), Ceil(c.cy + c.r))
  }

  /** Clipping to the grid keeps exactly the in-bounds cells of the box. */
  function Clip(b: Box, width: int, height: int): (c: Box)
    ensures c.xMin >= 0 && c.yMin >= 0 && c.xMax <= width - 1 && c.yMax <= height - 1
    ensures forall col, row :: c.Contains(col, row) <==> b.Contains(col, row) && 0 <= col < width && 0 <= row < height
  {
    Box(if b.xMin < 0 then 0 else b.xMin,
        if b.xMax < width - 1 then b.xMax else width - 1,
        if b.yMin < 0 then 0 else b.yMin,
        if b.yMax < height - 1 then b.yMax else height - 1)
  }

  lemma SquareBound(a: real, r: real)
    requires r >= 0.0 && a * a <= r * r
    ensures -r <= a <= r
  {
    var b := if a >= 0.0 then a else -a;
    assert b * b == a * a;
    SquareOrder(b, r);
  }

  /** With a non-negative radius the bounding box holds every cell the
      mask can select. */
  lemma BoundingBoxCoversCircle(c: Circle, col: int, row: int)
    requires c.r >= 0.0 && c.Covers(col, row)
    ensures BoundingBox(c).Contains(col, row)
  {
    var dx, dy := col as real - c.cx, row as real - c.cy;
    assert dx * dx <= c.r * c.r && dy * dy <= c.r * c.r by {
      assert dx * dx >= 0.0 && dy * dy >= 0.0;
    }
    SquareBound(dx, c.r);
    SquareBound(dy, c.r);
  }

  // ---------------------------------------------------------------------
  // Tallies of masked cells

  /** Which cells a reading keeps, by (column, row). */
  type Mask = (int, int) -> bool

  /** Sum of the grey levels and number of the masked cells seen so far. */
  datatype Tally = Tally(sum: int, count: nat) {
    function Add(o: Tally): Tally {
      Tally(sum + o.sum, count + o.count)
    }

    /** The mean intensity, 0 when nothing was counted. */
    function Mean(): real {
      if count == 0 then 0.0 else sum as real / (count as real * MaxLevel as real)
    }
  }

  /** The tally of no cells. */
  function Zero(): Tally {
    Tally(0, 0)
  }

  /** Masked cells of columns [lo, hi) of `line`, which is row `row`. */
  function RowTally(line: seq<int>, m: Mask, row: int, lo: int, hi: int): Tally
    requires 0 <= lo && hi <= |line|
    decreases hi - lo
  {
    if lo >= hi then Zero()
    else
      var t := RowTally(line, m, row, lo, hi - 1);
      if m(hi - 1, row) then Tally(t.sum + line[hi - 1], t.count + 1) else t
  }

  /** Masked cells of rows [rowLo, rowHi) and columns [colLo, colHi). */
  function BoxTally(g: Grid, m: Mask, rowLo: int, rowHi: int, colLo: int, colHi: int): Tally
    requires g.Valid() && 0 <= rowLo && rowHi <= g.height && 0 <= colLo && colHi <= g.width
    decreases rowHi - rowLo
  {
    if rowLo >= rowHi then Zero()
    else BoxTally(g, m, rowLo, rowHi - 1, colLo, colHi).Add(RowTally(g.cells[rowHi - 1], m, rowHi - 1, colLo, colHi))
  }

  /** Reference: the masked cells of the whole grid. */
  function GridTally(g: Grid, m: Mask): Tally
    requires g.Valid()
  {
    BoxTally(g, m, 0, g.height, 0, g.width)
  }

  lemma {:induction false} RowSplit(line: seq<int>, m: Mask, row: int, lo: int, mid: int, hi: int)
    requires 0 <= lo <= mid <= hi <= |line|
    ensures RowTally(line, m, row, lo, hi) == RowTally(line, m, row, lo, mid).Add(RowTally(line, m, row, mid, hi))
    decreases hi - mid
  {
    if mid < hi {
      RowSplit(line, m, row, lo, mid, hi - 1);
      var a, b := RowTally(line, m, row, lo, mid), RowTally(line, m, row, mid, hi - 1);
      assert RowTally(line, m, row, lo, hi - 1) == a.Add(b);
    } else {
      assert RowTally(line, m, row, mid, hi) == Zero();
    }
  }

  lemma {:induction false} RowNone(line: seq<int>, m: Mask, row: int, lo: int, hi: int)
    requires 0 <= lo && hi <= |line|
    requires forall col :: lo <= col < hi ==> !m(col, row)
    ensures RowTally(line, m, row, lo, hi) == Zero()
    decreases hi - lo
  {
    if lo < hi {
      RowNone(line, m, row, lo, hi - 1);
    }
  }

  /** A row's tally only depends on the columns where the mask can hit. */
  lemma RowRestrict(line: seq<int>, m: Mask, row: int, a: int, b: int)
    requires 0 <= a <= b <= |line|
    requires forall col :: 0 <= col < |line| && m(col, row) ==> a <= col < b
    ensures RowTally(line, m, row, 0, |line|) == RowTally(line, m, row, a, b)
  {
    var w := |line|;
    RowSplit(line, m, row, 0, a, w);
    RowSplit(line, m, row, a, b, w);
    RowNone(line, m, row, 0, a);
    RowNone(line, m, row, b, w);
    var mid := RowTally(line, m, row, a, b);
    assert RowTally(line, m, row, a, w) == mid.Add(Zero());
    assert RowTally(line, m, row, 0, w) == Zero().Add(mid.Add(Zero()));
  }

  lemma {:induction false} BoxSplit(g: Grid, m: Mask, lo: int, mid: int, hi: int, colLo: int, colHi: int)
    requires g.Valid() && 0 <= lo <= mid <= hi <= g.height && 0 <= colLo && colHi <= g.width
    ensures BoxTally(g, m, lo, hi, colLo, colHi) == BoxTally(g, m, lo, mid, colLo, colHi).Add(BoxTally(g, m, mid, hi, colLo, colHi))
    decreases hi - mid
  {
    if mid < hi {
      BoxSplit(g, m, lo, mid, hi - 1, colLo, colHi);
      var last := RowTally(g.cells[hi - 1], m, hi - 1, colLo, colHi);
      assert BoxTally(g, m, lo, hi, colLo, colHi) == BoxTally(g, m, lo, hi - 1, colLo, colHi).Add(last);
      assert BoxTally(g, m, mid, hi, colLo, colHi) == BoxTally(g, m, mid, hi - 1, colLo, colHi).Add(last);
    } else {
      assert BoxTally(g, m, mid, hi, colLo, colHi) == Zero();
    }
  }

  /** A box whose rows each tally nothing tallies nothing. */
  lemma {:induction false} BoxEmptyRows(g: Grid, m: Mask, rowLo: int, rowHi: int, colLo: int, colHi: int)
    requires g.Valid() && 0 <= rowLo && rowHi <= g.height && 0 <= colLo && colHi <= g.width
    requires forall row :: rowLo <= row < rowHi ==> RowTally(g.cells[row], m, row, colLo, colHi) == Zero()
    ensures BoxTally(g, m, rowLo, rowHi, colLo, colHi) == Zero()
    decreases rowHi - rowLo
  {
    if rowLo < rowHi {
      BoxEmptyRows(g, m, rowLo, rowHi - 1, colLo, colHi);
      var last := RowTally(g.cells[rowHi - 1], m, rowHi - 1, colLo, colHi);
      assert last == Zero();
      assert BoxTally(g, m, rowLo, rowHi, colLo, colHi) == BoxTally(g, m, rowLo, rowHi - 1, colLo, colHi).Add(last);
      assert Zero().Add(Zero()) == Zero();
    } else {
      assert BoxTally(g, m, rowLo, rowHi, colLo, colHi) == Zero();
    }
  }

  lemma BoxNone(g: Grid, m: Mask, rowLo: int, rowHi: int, colLo: int, colHi: int)
    requires g.Valid() && 0 <= rowLo && rowHi <= g.height && 0 <= colLo && colHi <= g.width
    requires forall col, row :: rowLo <= row < rowHi && colLo <= col < colHi ==> !m(col, row)
    ensures BoxTally(g, m, rowLo, rowHi, colLo, colHi) == Zero()
  {
    forall row | rowLo <= row < rowHi
      ensures RowTally(g.cells[row], m, row, colLo, colHi) == Zero()
    {
      RowNone(g.cells[row], m, row, colLo, colHi);
    }
    BoxEmptyRows(g, m, rowLo, rowHi, colLo, colHi);
  }

  /** Rows that agree on their tallies give equal box tallies. */
  lemma {:induction false} BoxColumns(g: Grid, m: Mask, rowLo: int, rowHi: int, lo1: int, hi1: int, lo2: int, hi2: int)
    requires g.Valid() && 0 <= rowLo && rowHi <= g.height
    requires 0 <= lo1 && hi1 <= g.width && 0 <= lo2 && hi2 <= g.width
    requires forall row :: rowLo <= row < rowHi ==> RowTally(g.cells[row], m, row, lo1, hi1) == RowTally(g.cells[row], m, row, lo2, hi2)
    ensures BoxTally(g, m, rowLo, rowHi, lo1, hi1) == BoxTally(g, m, rowLo, rowHi, lo2, hi2)
    decreases rowHi - rowLo
  {
    if rowLo < rowHi {
      BoxColumns(g, m, rowLo, rowHi - 1, lo1, hi1, lo2, hi2);
    }
  }

  /** The premise shared by the next three lemmas: a non-empty box inside
      the grid that holds every masked in-grid cell. */
  ghost predicate HoldsMask(g: Grid, m: Mask, b: Box) {
    !b.IsEmpty() && 0 <= b.xMin && b.xMax < g.width && 0 <= b.yMin && b.yMax < g.height &&
    forall col, row :: g.InBounds(col, row) && m(col, row) ==> b.Contains(col, row)
  }

  lemma OuterRowsEmpty(g: Grid, m: Mask, b: Box)
    requires g.Valid() && HoldsMask(g, m, b)
    ensures BoxTally(g, m, 0, b.yMin, 0, g.width) == Zero()
    ensures BoxTally(g, m, b.yMax + 1, g.height, 0, g.width) == Zero()
  {
    BoxNone(g, m, 0, b.yMin, 0, g.width);
    BoxNone(g, m, b.yMax + 1, g.height, 0, g.width);
  }

  lemma InnerRowsRestrict(g: Grid, m: Mask, b: Box)
    requires g.Valid() && HoldsMask(g, m, b)
    ensures BoxTally(g, m, b.yMin, b.yMax + 1, 0, g.width) == BoxTally(g, m, b.yMin, b.yMax + 1, b.xMin, b.xMax + 1)
  {
    forall row | b.yMin <= row <= b.yMax
      ensures RowTally(g.cells[row], m, row, 0, g.width) == RowTally(g.cells[row], m, row, b.xMin, b.xMax + 1)
    {
      RowRestrict(g.cells[row], m, row, b.xMin, b.xMax + 1);
    }
    BoxColumns(g, m, b.yMin, b.yMax + 1, 0, g.width, b.xMin, b.xMax + 1);
  }

  /** Such a box tallies exactly what the whole grid does. */
  lemma BoxHoldsMask(g: Grid, m: Mask, b: Box)
    requires g.Valid() && HoldsMask(g, m, b)
    ensures BoxTally(g, m, b.yMin, b.yMax + 1, b.xMin, b.xMax + 1) == GridTally(g, m)
  {
    var rowLo, rowHi := b.yMin, b.yMax + 1;
    BoxSplit(g, m, 0, rowLo, g.height, 0, g.width);
    BoxSplit(g, m, rowLo, rowHi, g.height, 0, g.width);
    OuterRowsEmpty(g, m, b);
    InnerRowsRestrict(g, m, b);
    var inner := BoxTally(g, m, rowLo, rowHi, 0, g.width);
    assert BoxTally(g, m, rowLo, g.height, 0, g.width) == inner.Add(Zero());
    assert GridTally(g, m) == Zero().Add(inner.Add(Zero()));
  }

  // ---------------------------------------------------------------------
  // Reading at a pixel-space circle

  /** The circle as a mask. */
  function MaskOf(c: Circle): Mask {
    (col: int, row: int) => c.Covers(col, row)
  }

  /** The clipped bounding box of a circle. */
  function Window(g: Grid, c: Circle): Box {
    Clip(BoundingBox(c), g.width, g.height)
  }

  /** `get_sensor_value` from the pixel centre and radius onward. */
  function ValueAt(g: Grid, c: Circle): (v: real)
    requires g.Valid()
    ensures g.EightBit() ==> 0.0 <= v <= 1.0
  {
    var b := Window(g, c);
    if b.IsEmpty() then 0.0
    else
      BoxMeanInUnitInterval(g, MaskOf(c), b.yMin, b.yMax + 1, b.xMin, b.xMax + 1);
      BoxTally(g, MaskOf(c), b.yMin, b.yMax + 1, b.xMin, b.xMax + 1).Mean()
  }

  /** The tally the reading is the mean of (zero for an empty window). */
  function WindowTally(g: Grid, c: Circle): (t: Tally)
    requires g.Valid()
    ensures ValueAt(g, c) == t.Mean()
  {
    var b := Window(g, c);
    if b.IsEmpty() then Zero()
    else BoxTally(g, MaskOf(c), b.yMin, b.yMax + 1, b.xMin, b.xMax + 1)
  }

  /** An empty clipped window (the circle lies off the grid) reads 0. */
  lemma EmptyWindowReadsZero(g: Grid, c: Circle)
    requires g.Valid() && Window(g, c).IsEmpty()
    ensures ValueAt(g, c) == 0.0
    ensures forall col, row :: !(g.InBounds(col, row) && BoundingBox(c).Contains(col, row))
  {
  }

  /** The reading is the mean of exactly the in-grid cells whose integer
      corner point lies within the radius: the window loses none of them. */
  lemma ValueIsMaskedMean(g: Grid, c: Circle)
    requires g.Valid() && c.r >= 0.0
    ensures WindowTally(g, c) == GridTally(g, MaskOf(c))
    ensures ValueAt(g, c) == GridTally(g, MaskOf(c)).Mean()
  {
    var b := Window(g, c);
    var m := MaskOf(c);
    forall col, row | g.InBounds(col, row) && m(col, row)
      ensures b.Contains(col, row)
    {
      BoundingBoxCoversCircle(c, col, row);
    }
    if b.IsEmpty() {
      BoxNone(g, m, 0, g.height, 0, g.width);
    } else {
      BoxHoldsMask(g, m, b);
    }
  }

  // ---------------------------------------------------------------------
  // Range of a reading

  /** Every masked cell of the rectangle has a level in [lo, hi]. */
  ghost predicate MaskedWithin(g: Grid, m: Mask, rowLo: int, rowHi: int, colLo: int, colHi: int, lo: int, hi: int)
    requires g.Valid() && 0 <= rowLo && rowHi <= g.height && 0 <= colLo && colHi <= g.width
  {
    forall col, row :: rowLo <= row < rowHi && colLo <= col < colHi && m(col, row) ==> lo <= g.cells[row][col] <= hi
  }

  ghost predicate TallyWithin(t: Tally, lo: int, hi: int) {
    lo * t.count <= t.sum <= hi * t.count
  }

  lemma {:induction false} RowTallyWithin(line: seq<int>, m: Mask, row: int, lo: int, hi: int, a: int, b: int)
    requires 0 <= lo && hi <= |line|
    requires forall col :: lo <= col < hi && m(col, row) ==> a <= line[col] <= b
    ensures TallyWithin(RowTally(line, m, row, lo, hi), a, b)
    decreases hi - lo
  {
    if lo < hi {
      RowTallyWithin(line, m, row, lo, hi - 1, a, b);
      var n := RowTally(line, m, row, lo, hi - 1).count;
      assert a * (n + 1) == a * n + a;
      assert b * (n + 1) == b * n + b;
    }
  }

  lemma {:induction false} BoxTallyWithin(g: Grid, m: Mask, rowLo: int, rowHi: int, colLo: int, colHi: int, a: int, b: int)
    requires g.Valid() && 0 <= rowLo && rowHi <= g.height && 0 <= colLo && colHi <= g.width
    requires MaskedWithin(g, m, rowLo, rowHi, colLo, colHi, a, b)
    ensures TallyWithin(BoxTally(g, m, rowLo, rowHi, colLo, colHi), a, b)
    decreases rowHi - rowLo
  {
    if rowLo < rowHi {
      BoxTallyWithin(g, m, rowLo, rowHi - 1, colLo, colHi, a, b);
      RowTallyWithin(g.cells[rowHi - 1], m, rowHi - 1, colLo, colHi, a, b);
      var n1 := BoxTally(g, m, rowLo, rowHi - 1, colLo, colHi).count;
      var n2 := RowTally(g.cells[rowHi - 1], m, rowHi - 1, colLo, colHi).count;
      assert a * (n1 + n2) == a * n1 + a * n2;
      assert b * (n1 + n2) == b * n1 + b * n2;
    }
  }

  /** A tally whose levels lie in [lo, hi] has its mean intensity between
      theirs. */
  lemma MeanWithin(t: Tally, lo: int, hi: int)
    requires TallyWithin(t, lo, hi) && t.count > 0
    ensures Intensity(lo) <= t.Mean() <= Intensity(hi)
  {
    var n, k := t.count as real, MaxLevel as real;
    var big := n * k;
    PositiveProduct(n, k);
    var sum := t.sum as real;
    var mean := sum / big;
    DivCancel(sum, big);
    var a, b := Intensity(lo), Intensity(hi);
    DivCancel(lo as real, k);
    DivCancel(hi as real, k);
    CastProduct(lo, t.count);
    CastProduct(hi, t.count);
    assert a * big == lo as real * n;
    assert b * big == hi as real * n;
    ScaleOrder(a, mean, big);
    ScaleOrder(mean, b, big);
  }

  /** If every in-grid cell under the circle lies in [lo, hi], the reading
      does too, unless no cell is under the circle and it reads 0. */
  lemma ReadingWithinCoveredRange(g: Grid, c: Circle, lo: int, hi: int)
    requires g.Valid()
    requires forall col, row :: g.InBounds(col, row) && c.Covers(col, row) ==> lo <= g.cells[row][col] <= hi
    ensures Intensity(lo) <= ValueAt(g, c) <= Intensity(hi) || (ValueAt(g, c) == 0.0 && WindowTally(g, c).count == 0)
  {
    var b := Window(g, c);
    if !b.IsEmpty() {
      BoxTallyWithin(g, MaskOf(c), b.yMin, b.yMax + 1, b.xMin, b.xMax + 1, lo, hi);
      var t := WindowTally(g, c);
      if t.count > 0 {
        MeanWithin(t, lo, hi);
      }
    }
  }

  /** On an 8-bit map the mean of any masked rectangle lies in [0, 1]. */
  lemma BoxMeanInUnitInterval(g: Grid, m: Mask, rowLo: int, rowHi: int, colLo: int, colHi: int)
    requires g.Valid() && 0 <= rowLo && rowHi <= g.height && 0 <= colLo && colHi <= g.width
    ensures g.EightBit() ==> 0.0 <= BoxTally(g, m, rowLo, rowHi, colLo, colHi).Mean() <= 1.0
  {
    if g.EightBit() {
      var t := BoxTally(g, m, rowLo, rowHi, colLo, colHi);
      BoxTallyWithin(g, m, rowLo, rowHi, colLo, colHi, 0, MaxLevel);
      if t.count > 0 {
        MeanWithin(t, 0, MaxLevel);
      }
    }
  }

  lemma {:induction false} RowHit(line: seq<int>, m: Mask, row: int, lo: int, hi: int, col: int)
    requires 0 <= lo <= col < hi <= |line|
    requires m(col, row)
    ensures RowTally(line, m, row, lo, hi).count > 0
  {
    RowSplit(line, m, row, lo, col + 1, hi);
  }

  lemma {:induction false} BoxHit(g: Grid, m: Mask, rowLo: int, rowHi: int, colLo: int, colHi: int, col: int, row: int)
    requires g.Valid() && 0 <= rowLo <= row < rowHi <= g.height && 0 <= colLo <= col < colHi <= g.width
    requires m(col, row)
    ensures BoxTally(g, m, rowLo, rowHi, colLo, colHi).count > 0
  {
    BoxSplit(g, m, rowLo, row + 1, rowHi, colLo, colHi);
    RowHit(g.cells[row], m, row, colLo, colHi, col);
  }

  /** A circle over a region of uniform level k, with at least one cell's
      corner point inside it, reads exactly the intensity of k. */
  lemma UniformRegionReadsItsValue(g: Grid, c: Circle, k: int, col: int, row: int)
    requires g.Valid() && c.r >= 0.0
    requires g.InBounds(col, row) && c.Covers(col, row)
    requires forall col', row' :: g.InBounds(col', row') && c.Covers(col', row') ==> g.cells[row'][col'] == k
    ensures ValueAt(g, c) == Intensity(k)
  {
    ValueIsMaskedMean(g, c);
    BoxHit(g, MaskOf(c), 0, g.height, 0, g.width, col, row);
    ReadingWithinCoveredRange(g, c, k, k);
  }

  /** With no in-grid cell's corner point inside the circle the reading is 0;
      this covers every sensor that is off the map. */
  lemma NoCoveredCellReadsZero(g: Grid, c: Circle)
    requires g.Valid()
    requires forall col, row :: g.InBounds(col, row) ==> !c.Covers(col, row)
    ensures ValueAt(g, c) == 0.0
  {
    var b := Window(g, c);
    if !b.IsEmpty() {
      BoxNone(g, MaskOf(c), b.yMin, b.yMax + 1, b.xMin, b.xMax + 1);
    }
  }

  // ---------------------------------------------------------------------
  // The sensor

  /** A mounted sensor: body-frame offset and view diameter, the grid and
      the world size of the map. */
  datatype LightSensor = LightSensor(xLocal: real, yLocal: real, diameter: real, grid: Grid, mapWidth: real, mapHeight: real) {
    predicate Valid() {
      grid.Valid() && mapWidth != 0.0 && mapHeight != 0.0
    }

    function Radius(): real {
      diameter / 2.0
    }

    function ScaleX(): real
      requires mapWidth != 0.0
    {
      grid.width as real / mapWidth
    }

    function ScaleY(): real
      requires mapHeight != 0.0
    {
      grid.height as real / mapHeight
    }
  }

  /** The constructor; `None` is the division by zero a zero map size
      raises when the scales are computed. */
  function NewLightSensor(geometry: (real, real, real), grid: Grid, mapSize: (real, real)): (r: Option<LightSensor>)
    requires grid.Valid()
    ensures r.Some? <==> mapSize.0 != 0.0 && mapSize.1 != 0.0
    ensures r.Some? ==> r.value.Valid() && r.value.grid == grid
    ensures r.Some? ==> r.value.Radius() * 2.0 == geometry.2
    ensures r.Some? ==> (r.value.xLocal, r.value.yLocal, r.value.diameter) == geometry
    ensures r.Some? ==> (r.value.mapWidth, r.value.mapHeight) == mapSize
    ensures r.Some? ==> r.value.ScaleX() * mapSize.0 == grid.width as real && r.value.ScaleY() * mapSize.1 == grid.height as real
  {
    if mapSize.0 == 0.0 || mapSize.1 == 0.0 then None
    else Some(LightSensor(geometry.0, geometry.1, geometry.2, grid, mapSize.0, mapSize.1))
  }

  /** Rotating an offset keeps its length when cos² + sin² = 1. */
  lemma RotationLength(c: real, sn: real, a: real, b: real)
    ensures (c * a - sn * b) * (c * a - sn * b) + (sn * a + c * b) * (sn * a + c * b)
         == (c * c + sn * sn) * (a * a + b * b)
  {
  }

  /** World position of the sensor for a pose `(x, y, heading)`. The mount
      is rigid: whenever cos² + sin² = 1 at the heading, the sensor sits at
      its body-frame distance from the vehicle. */
  function SensorPosition(s: LightSensor, pose: (real, real, real), trig: Trig): (p: (real, real))
    ensures trig.UnitAt(pose.2) ==>
      (p.0 - pose.0) * (p.0 - pose.0) + (p.1 - pose.1) * (p.1 - pose.1) == s.xLocal * s.xLocal + s.yLocal * s.yLocal
  {
    var c, sn := trig.cos(pose.2), trig.sin(pose.2);
    RotationLength(c, sn, s.xLocal, s.yLocal);
    (pose.0 + c * s.xLocal - sn * s.yLocal, pose.1 + sn * s.xLocal + c * s.yLocal)
  }

  /** Rotating the sensor's world offset back by the heading recovers its
      body-frame mount, whenever cos² + sin² = 1 at the heading. */
  lemma BodyOffsetRecovered(s: LightSensor, pose: (real, real, real), trig: Trig)
    requires trig.UnitAt(pose.2)
    ensures var p, c, sn := SensorPosition(s, pose, trig), trig.cos(pose.2), trig.sin(pose.2);
      && c * (p.0 - pose.0) + sn * (p.1 - pose.1) == s.xLocal
      && c * (p.1 - pose.1) - sn * (p.0 - pose.0) == s.yLocal
  {
    var c, sn := trig.cos(pose.2), trig.sin(pose.2);
    var a, b := s.xLocal, s.yLocal;
    var p := SensorPosition(s, pose, trig);
    assert p.0 - pose.0 == c * a - sn * b;
    assert p.1 - pose.1 == sn * a + c * b;
    assert c * (c * a - sn * b) + sn * (sn * a + c * b) == (c * c + sn * sn) * a;
    assert c * (sn * a + c * b) - sn * (c * a - sn * b) == (c * c + sn * sn) * b;
  }

  /** World to pixel coordinates: x scaled, y flipped so that row 0 is
      the top of the map. */
  function WorldToPixel(s: LightSensor, wx: real, wy: real): (px: (real, real))
    requires s.Valid()
    ensures px.0 * s.mapWidth == wx * s.grid.width as real
    ensures px.1 * s.mapHeight == (s.mapHeight - wy) * s.grid.height as real
  {
    var w, h := s.grid.width as real, s.grid.height as real;
    var sx, sy, dy := s.ScaleX(), s.ScaleY(), s.mapHeight - wy;
    DivCancel(w, s.mapWidth);
    DivCancel(h, s.mapHeight);
    assert sx * s.mapWidth == w && sy * s.mapHeight == h;
    assert wx * sx * s.mapWidth == wx * (sx * s.mapWidth);
    assert dy * sy * s.mapHeight == dy * (sy * s.mapHeight);
    (wx * sx, dy * sy)
  }

  /** The map's top-left world corner is pixel (0, 0), its bottom-right
      corner is pixel (width, height), and going up in the world goes
      up the image. */
  lemma PixelFrameCorners(s: LightSensor, wy1: real, wy2: real)
    requires s.Valid()
    ensures WorldToPixel(s, 0.0, s.mapHeight) == (0.0, 0.0)
    ensures WorldToPixel(s, s.mapWidth, 0.0) == (s.grid.width as real, s.grid.height as real)
    ensures s.ScaleY() > 0.0 && wy1 < wy2 ==> WorldToPixel(s, 0.0, wy1).1 > WorldToPixel(s, 0.0, wy2).1
  {
    var sx, sy := s.ScaleX(), s.ScaleY();
    var w, h := s.grid.width as real, s.grid.height as real;
    assert sx == w / s.mapWidth && sy == h / s.mapHeight;
    DivCancel(w, s.mapWidth);
    DivCancel(h, s.mapHeight);
    assert sx * s.mapWidth == w;
    assert sy * s.mapHeight == h;
    var p := WorldToPixel(s, 0.0, s.mapHeight);
    assert p.0 == 0.0 * sx;
    assert p.1 == (s.mapHeight - s.mapHeight) * sy;
    assert p == (0.0, 0.0);
    var q := WorldToPixel(s, s.mapWidth, 0.0);
    assert q.0 == s.mapWidth * sx == sx * s.mapWidth;
    assert q.1 == s.mapHeight * sy == sy * s.mapHeight;
    assert q == (s.grid.width as real, s.grid.height as real);
    if sy > 0.0 && wy1 < wy2 {
      var d := wy2 - wy1;
      PositiveProduct(d, sy);
      assert (s.mapHeight - wy1) * sy - (s.mapHeight - wy2) * sy == d * sy;
    }
  }

  /** The sensor's circle in pixel space: the centre is the sensor's
      world position scaled per axis, with rows counted down from the
      map's top; the radius is the view radius scaled by width / map width
      alone, whatever the vertical scale (pixels are taken to be square). */
  function PixelCircle(s: LightSensor, pose: (real, real, real), trig: Trig): (c: Circle)
    requires s.Valid()
    ensures var p := SensorPosition(s, pose, trig);
      && c.cx * s.mapWidth == p.0 * s.grid.width as real
      && c.cy * s.mapHeight == (s.mapHeight - p.1) * s.grid.height as real
    ensures c.r * s.mapWidth == s.Radius() * s.grid.width as real
    ensures s.diameter >= 0.0 && s.mapWidth > 0.0 ==> c.r >= 0.0
  {
    var p := SensorPosition(s, pose, trig);
    var px := WorldToPixel(s, p.0, p.1);
    var rad, sx, w, mw := s.Radius(), s.ScaleX(), s.grid.width as real, s.mapWidth;
    DivCancel(w, mw);
    assert sx * mw == w;
    assert rad * sx * mw == rad * (sx * mw);
    Circle(px.0, px.1, rad * sx)
  }

  /** `get_sensor_value(pose)`. On an 8-bit map the reading lies in
      [0, 1]; a sensor of non-negative diameter on a map of positive width
      reads the mean of exactly the grid cells under its circle. */
  function GetSensorValue(s: LightSensor, pose: (real, real, real), trig: Trig): (v: real)
    requires s.Valid()
    ensures s.grid.EightBit() ==> 0.0 <= v <= 1.0
    ensures s.diameter >= 0.0 && s.mapWidth > 0.0 ==> v == GridTally(s.grid, MaskOf(PixelCircle(s, pose, trig))).Mean()
  {
    var c := PixelCircle(s, pose, trig);
    if c.r >= 0.0 then
      ValueIsMaskedMean(s.grid, c);
      ValueAt(s.grid, c)
    else ValueAt(s.grid, c)
  }
}

=== FILE: trigonometry.dfy ===
/** The cosine and sine used by the kinematics and the sensor mounts.
    They are left uninterpreted: every operation that needs them takes a
    `Trig` value, and no identity about them is assumed anywhere unless a
    lemma states it as a hypothesis. */
module Trigonometry {

  datatype Trig = Trig(cos: real -> real, sin: real -> real) {

    /** cos² + sin² = 1 at the given angle (a hypothesis some lemmas use). */
    predicate UnitAt(theta: real) {
      cos(theta) * cos(theta) + sin(theta) * sin(theta) == 1.0
    }
  }
}

=== FILE: visualizer.dfy ===
/** The simulation loop. A mode flag, toggled by gamepad button 0, decides
    on every timer tick whether the vehicle follows the controller or
    the joystick. A tick reads the eight light sensors at the current pose,
    selects a command and advances the pose by one fixed time step.

    The vehicle model the loop drives is not part of this model, so a tick
    takes it as a parameter (`MotionLaw`); the controller is likewise an
    opaque function of the readings, of which control.py's
    `CircleController` is one instance. */
module Visualizer {
  import opened Wrappers
  import opened Trigonometry
  import Kinematics
  import GamePad
  import Sensor

  /** Time step of one tick (the timer period, in seconds). */
  const Dt: real := 0.01

  /** World size of the map the sensors read. */
  const MapWidth: real := 25.0
  const MapHeight: real := 25.0

  const Pi: real := 3.141592653589793

  // ---------------------------------------------------------------------
  // Mode

  datatype Mode = Manual | Auto

  /** The loop starts under joystick control. */
  const InitialMode: Mode := Manual

  function Flip(mode: Mode): Mode {
    if mode == Auto then Manual else Auto
  }

  /** `button_callback`: button 0 switches the mode, any other button is
      ignored. */
  function ButtonCallback(mode: Mode, button: int): (r: Mode)
    ensures button == 0 <==> r != mode
    ensures r == mode || r == Flip(mode)
  {
    if button == 0 then
      if mode == Auto then Manual else Auto
    else mode
  }

  /** The mode after a sequence of released buttons, in order. */
  function ApplyButtons(mode: Mode, buttons: seq<int>): Mode
    decreases |buttons|
  {
    if |buttons| == 0 then mode else ApplyButtons(ButtonCallback(mode, buttons[0]), buttons[1..])
  }

  /** How many of the buttons are button 0. */
  function ZeroPresses(buttons: seq<int>): nat
    decreases |buttons|
  {
    if |buttons| == 0 then 0 else (if buttons[0] == 0 then 1 else 0) + ZeroPresses(buttons[1..])
  }

  /** Only the parity of the button-0 presses matters. */
  lemma {:induction false} ToggleParity(mode: Mode, buttons: seq<int>)
    ensures ApplyButtons(mode, buttons) == if ZeroPresses(buttons) % 2 == 0 then mode else Flip(mode)
    decreases |buttons|
  {
    if |buttons| > 0 {
      ToggleParity(ButtonCallback(mode, buttons[0]), buttons[1..]);
    }
  }

  /** From the initial mode, an odd number of button-0 presses means the
      controller drives, an even number the joystick. */
  lemma ModeFromStart(buttons: seq<int>)
    ensures ApplyButtons(InitialMode, buttons) == Auto <==> ZeroPresses(buttons) % 2 == 1
  {
    ToggleParity(InitialMode, buttons);
  }

  // ---------------------------------------------------------------------
  // Setup

  /** The joystick reader's settings: device 0, throttle on axis 1 (left
      stick Y), steering on axis 0 (left stick X), 15 units of speed and
      60 degrees of steering at full deflection, a 0.10 dead zone, 120 Hz. */
  const JoystickConfig := GamePad.NewConfig(0, 1, 0, 15.0, 60.0, 0.10, 120.0)

  /** Full stick deflection forward-left asks for 15 units of speed and 60
      degrees of steering; full deflection back-right for the negatives. */
  lemma JoystickLimits()
    ensures JoystickConfig.Some?
    ensures GamePad.MapAxes(JoystickConfig.value, -1.0, -1.0) == Some(GamePad.Command(15.0, 60.0))
    ensures GamePad.MapAxes(JoystickConfig.value, 1.0, 1.0) == Some(GamePad.Command(-15.0, -60.0))
  {
    GamePad.FullDeflectionReachesLimits(JoystickConfig.value);
  }

  /** Body-frame mounts of the eight sensors: one row 0.5 ahead of the
      vehicle, from 1.75 on the left to 1.75 on the right, each 0.5 wide. */
  const Geometries: seq<(real, real, real)> := [
    (0.5, 1.75, 0.5), (0.5, 1.25, 0.5), (0.5, 0.75, 0.5), (0.5, 0.25, 0.5),
    (0.5, -0.25, 0.5), (0.5, -0.75, 0.5), (0.5, -1.25, 0.5), (0.5, -1.75, 0.5)]

  /** The mounts run from left to right across the vehicle, evenly spaced
      0.5 apart and all with the same forward offset and diameter. */
  lemma GeometriesLeftToRight()
    ensures |Geometries| == 8
    ensures forall i :: 0 <= i < 8 ==> Geometries[i].0 == 0.5 && Geometries[i].2 == 0.5
    ensures forall i :: 0 <= i < 7 ==> Geometries[i].1 - Geometries[i + 1].1 == 0.5
    ensures forall i :: 0 <= i < 8 ==> Geometries[i].1 == -Geometries[7 - i].1
  {
  }

  /** The sensors for `geoms`, in order, all on `grid` and the map size. */
  function MountSensors(geoms: seq<(real, real, real)>, grid: Sensor.Grid): (r: seq<Sensor.LightSensor>)
    requires grid.Valid()
    ensures |r| == |geoms|
    ensures forall i :: 0 <= i < |r| ==> r[i].Valid() && r[i].grid == grid
    ensures forall i :: 0 <= i < |r| ==> (r[i].xLocal, r[i].yLocal, r[i].diameter) == geoms[i]
    ensures forall i :: 0 <= i < |r| ==> (r[i].mapWidth, r[i].mapHeight) == (MapWidth, MapHeight)
    decreases |geoms|
  {
    if |geoms| == 0 then []
    else
      var s := Sensor.NewLightSensor(geoms[0], grid, (MapWidth, MapHeight));
      [s.value] + MountSensors(geoms[1..], grid)
  }

  /** The module-level state the timer callback reads and writes. */
  datatype Sim = Sim(mode: Mode, pose: Kinematics.State, sensors: seq<Sensor.LightSensor>) {
    predicate Valid() {
      forall i :: 0 <= i < |sensors| ==> sensors[i].Valid()
    }
  }

  /** The state after setup, for the map's grid of grey levels. */
  function Init(grid: Sensor.Grid): (r: Sim)
    requires grid.Valid()
    ensures r.Valid() && r.mode == Manual && |r.sensors| == 8
    ensures Kinematics.GetState(r.pose) == (0.5, 0.1, Pi / 6.0)
    ensures forall i :: 0 <= i < |r.sensors| ==> (r.sensors[i].xLocal, r.sensors[i].yLocal, r.sensors[i].diameter) == Geometries[i]
    ensures forall i :: 0 <= i < |r.sensors| ==> r.sensors[i].grid == grid
  {
    Sim(InitialMode, Kinematics.State(0.5, 0.1, Pi / 6.0), MountSensors(Geometries, grid))
  }

  // ---------------------------------------------------------------------
  // Tick

  /** One reading per sensor, in the order the sensors were mounted, all
      taken at the same pose; on 8-bit maps every reading lies in [0, 1]. */
  function Readings(sensors: seq<Sensor.LightSensor>, pose: Kinematics.State, trig: Trig): (r: seq<real>)
    requires forall i :: 0 <= i < |sensors| ==> sensors[i].Valid()
    ensures |r| == |sensors|
    ensures forall i :: 0 <= i < |r| ==> r[i] == Sensor.GetSensorValue(sensors[i], Kinematics.GetState(pose), trig)
    ensures forall i :: 0 <= i < |r| && sensors[i].Valid() && sensors[i].grid.EightBit() ==> 0.0 <= r[i] <= 1.0
    decreases |sensors|
  {
    if |sensors| == 0 then []
    else Readings(sensors[..|sensors| - 1], pose, trig) + [Sensor.GetSensorValue(sensors[|sensors| - 1], Kinematics.GetState(pose), trig)]
  }

  /** The controller: a (velocity, steering) pair from the readings. */
  type Controller = seq<real> -> (real, real)

  /** The vehicle model a tick drives: pose, velocity, steering, time step. */
  type MotionLaw = (Kinematics.State, real, real, real) -> Kinematics.State

  /** The command of a tick: the controller's in `Auto`, the joystick's
      latest published command otherwise, which then stays within the
      joystick's limits whenever the published command does. */
  function SelectCommand(mode: Mode, readings: seq<real>, controller: Controller, rd: GamePad.Reader): (cmd: (real, real))
    ensures mode == Auto ==> cmd == controller(readings)
    ensures mode == Manual && GamePad.Bounded(rd.cfg, rd.published) ==>
      GamePad.Abs(cmd.0) <= GamePad.Abs(rd.cfg.vmax) && GamePad.Abs(cmd.1) <= GamePad.Abs(rd.cfg.steerMaxDeg)
  {
    if mode == Auto then controller(readings) else GamePad.GetSteering(rd)
  }

  /** `on_timer`: read the sensors, select the command, advance the pose. */
  function OnTimer(sim: Sim, rd: GamePad.Reader, controller: Controller, law: MotionLaw, trig: Trig): (r: Sim)
    requires sim.Valid()
    ensures r.Valid() && r.mode == sim.mode && r.sensors == sim.sensors
  {
    var values := Readings(sim.sensors, sim.pose, trig);
    var cmd := SelectCommand(sim.mode, values, controller, rd);
    sim.(pose := law(sim.pose, cmd.0, cmd.1, Dt))
  }

  /** In `Manual` the tick follows the joystick and the controller plays
      no part. */
  lemma ManualTickFollowsJoystick(sim: Sim, rd: GamePad.Reader, c1: Controller, c2: Controller, law: MotionLaw, trig: Trig)
    requires sim.Valid() && sim.mode == Manual
    ensures OnTimer(sim, rd, c1, law, trig) == OnTimer(sim, rd, c2, law, trig)
    ensures OnTimer(sim, rd, c1, law, trig).pose == law(sim.pose, rd.published.linVel, rd.published.steerDeg, Dt)
  {
  }

  /** In `Auto` the tick applies the controller to this tick's readings
      and the joystick plays no part. */
  lemma AutoTickFollowsController(sim: Sim, rd1: GamePad.Reader, rd2: GamePad.Reader, controller: Controller, law: MotionLaw, trig: Trig)
    requires sim.Valid() && sim.mode == Auto
    ensures OnTimer(sim, rd1, controller, law, trig) == OnTimer(sim, rd2, controller, law, trig)
    ensures var cmd := controller(Readings(sim.sensors, sim.pose, trig));
      OnTimer(sim, rd1, controller, law, trig).pose == law(sim.pose, cmd.0, cmd.1, Dt)
  {
  }

  /** control.py's `CircleController`: the same (velocity, steering) pair
      whatever the readings. */
  function CircleController(velocity: real, steeringAngle: real): Controller {
    (readings: seq<real>) => (velocity, steeringAngle)
  }

  /** The program's controller drives the vehicle in a circle: in `Auto`
      a tick applies (10, 30) whatever the sensors read. */
  lemma AutoTickCircles(sim: Sim, rd: GamePad.Reader, law: MotionLaw, trig: Trig)
    requires sim.Valid() && sim.mode == Auto
    ensures OnTimer(sim, rd, CircleController(10.0, 30.0), law, trig).pose == law(sim.pose, 10.0, 30.0, Dt)
  {
    AutoTickFollowsController(sim, rd, rd, CircleController(10.0, 30.0), law, trig);
  }

  // ---------------------------------------------------------------------
  // The running loop

  /** What happens between two observations: a tick of the timer, or one
      cycle of the joystick reader's polling loop (its device, the events
      it drains and its two clock readings). */
  datatype Step =
    | Tick
    | Poll(js: Option<GamePad.Device>, events: seq<GamePad.Event>, now: real, nowAgain: real)

  /** The whole program's state: the simulation and the joystick reader. */
  datatype Loop = Loop(sim: Sim, reader: GamePad.Reader)

  /** One step, and the buttons it delivered to the mode callback. A poll
      cycle fires the callback for each released button and publishes a
      new command; a tick reads the reader's published command. */
  function StepLoop(l: Loop, step: Step, controller: Controller, law: MotionLaw, trig: Trig): (r: (Loop, seq<int>))
    requires l.sim.Valid()
    ensures r.0.sim.Valid() && r.0.sim.sensors == l.sim.sensors && r.0.reader.cfg == l.reader.cfg
    ensures r.0.sim.mode == ApplyButtons(l.sim.mode, r.1)
    ensures step.Tick? ==> r.1 == [] && r.0.reader == l.reader
    ensures step.Tick? ==> r.0.sim == OnTimer(l.sim, l.reader, controller, law, trig)
    ensures step.Poll? ==> r.0.sim.pose == l.sim.pose
    ensures step.Poll? ==> r.0.reader == GamePad.PollCycle(l.reader, step.js, step.events, step.now, step.nowAgain).reader
  {
    match step
    case Tick => (l.(sim := OnTimer(l.sim, l.reader, controller, law, trig)), [])
    case Poll(js, events, now, nowAgain) =>
      var p := GamePad.PollCycle(l.reader, js, events, now, nowAgain);
      (Loop(l.sim.(mode := ApplyButtons(l.sim.mode, p.callbacks)), p.reader), p.callbacks)
  }

  /** The loop over an interleaving of ticks and poll cycles, with every
      button delivered to the mode callback along the way. */
  function RunSteps(l: Loop, steps: seq<Step>, controller: Controller, law: MotionLaw, trig: Trig): (r: (Loop, seq<int>))
    requires l.sim.Valid()
    ensures r.0.sim.Valid() && r.0.sim.sensors == l.sim.sensors && r.0.reader.cfg == l.reader.cfg
    decreases |steps|
  {
    if |steps| == 0 then (l, [])
    else
      var first := StepLoop(l, steps[0], controller, law, trig);
      var rest := RunSteps(first.0, steps[1..], controller, law, trig);
      (rest.0, first.1 + rest.1)
  }

  /** A poll of an attached stick followed by a tick in `Manual` moves the
      robot by exactly the command that poll shaped from the stick, as long
      as the poll's releases leave the mode in `Manual`. */
  lemma PollThenTickAppliesStick(l: Loop, axes: seq<real>, events: seq<GamePad.Event>, now: real, nowAgain: real,
                                 controller: Controller, law: MotionLaw, trig: Trig)
    requires l.sim.Valid() && l.sim.mode == Manual
    requires l.reader.alive && 0.0 <= l.reader.cfg.deadzone < 1.0
    requires 0 <= l.reader.cfg.axisThrottle < |axes| && 0 <= l.reader.cfg.axisSteer < |axes|
    requires ApplyButtons(Manual, GamePad.ReleasedButtons(events)) == Manual
    ensures var cmd := GamePad.MapAxes(l.reader.cfg, axes[l.reader.cfg.axisThrottle], axes[l.reader.cfg.axisSteer]).value;
      var steps := [Poll(Some(GamePad.Device(axes, true)), events, now, nowAgain), Tick];
      RunSteps(l, steps, controller, law, trig).0.sim.pose == law(l.sim.pose, cmd.linVel, cmd.steerDeg, Dt)
  {
    var steps := [Poll(Some(GamePad.Device(axes, true)), events, now, nowAgain), Tick];
    GamePad.LiveCyclePublishesStick(l.reader, axes, events, now, nowAgain);
    var first := StepLoop(l, steps[0], controller, law, trig);
    assert first.0.sim.mode == Manual;
    ManualTickFollowsJoystick(first.0.sim, first.0.reader, controller, controller, law, trig);
    assert steps[1..] == [Tick] && [Tick][1..] == [];
  }

  lemma {:induction false} ApplyButtonsConcat(mode: Mode, a: seq<int>, b: seq<int>)
    ensures ApplyButtons(mode, a + b) == ApplyButtons(ApplyButtons(mode, a), b)
    decreases |a|
  {
    if |a| > 0 {
      assert (a + b)[0] == a[0];
      assert (a + b)[1..] == a[1..] + b;
      ApplyButtonsConcat(ButtonCallback(mode, a[0]), a[1..], b);
    } else {
      assert a + b == b;
    }
  }

  /** Ticks never change the mode: it is decided by the delivered buttons
      alone, in order. */
  lemma {:induction false} ModeFollowsPresses(l: Loop, steps: seq<Step>, controller: Controller, law: MotionLaw, trig: Trig)
    requires l.sim.Valid()
    ensures var r := RunSteps(l, steps, controller, law, trig);
      r.0.sim.mode == ApplyButtons(l.sim.mode, r.1)
    decreases |steps|
  {
    if |steps| > 0 {
      var first := StepLoop(l, steps[0], controller, law, trig);
      ModeFollowsPresses(first.0, steps[1..], controller, law, trig);
      var rest := RunSteps(first.0, steps[1..], controller, law, trig);
      ApplyButtonsConcat(l.sim.mode, first.1, rest.1);
    }
  }

  /** The events the poll cycles of a run drain, in order. */
  function PolledEvents(steps: seq<Step>): seq<GamePad.Event>
    decreases |steps|
  {
    if |steps| == 0 then []
    else (if steps[0].Poll? then steps[0].events else []) + PolledEvents(steps[1..])
  }

  /** With the callback registered and a threshold below 1 (so shaping
      never kills the reader), the callback sees exactly the released
      buttons of every polled event, once each and in order, and the mode
      is their toggle count's parity applied to the starting mode. */
  lemma {:induction false} CallbackSeesEveryRelease(l: Loop, steps: seq<Step>, controller: Controller, law: MotionLaw, trig: Trig)
    requires l.sim.Valid() && l.reader.alive && l.reader.hasCallback && 0.0 <= l.reader.cfg.deadzone < 1.0
    ensures var r := RunSteps(l, steps, controller, law, trig);
      && r.1 == GamePad.ReleasedButtons(PolledEvents(steps))
      && r.0.reader.alive
    decreases |steps|
  {
    if |steps| > 0 {
      var first := StepLoop(l, steps[0], controller, law, trig);
      assert first.0.reader.alive && first.0.reader.hasCallback;
      CallbackSeesEveryRelease(first.0, steps[1..], controller, law, trig);
      var own := if steps[0].Poll? then steps[0].events else [];
      GamePad.ReleasedButtonsConcat(own, PolledEvents(steps[1..]));
      assert first.1 == GamePad.ReleasedButtons(own);
    } else {
      assert GamePad.ReleasedButtons([]) == [];
    }
  }
  /** From the program's initial state, with the callback registered and
      the reader just started, the run ends in `Auto` exactly when button 0
      was released an odd number of times in the polled events. */
  lemma StartModeFollowsPolledPresses(grid: Sensor.Grid, t0: real, steps: seq<Step>,
                                      controller: Controller, law: MotionLaw, trig: Trig)
    requires grid.Valid()
    ensures JoystickConfig.Some?
    ensures var start := Loop(Init(grid), GamePad.NewReader(JoystickConfig.value, true, t0));
      (RunSteps(start, steps, controller, law, trig).0.sim.mode == Auto
       <==> ZeroPresses(GamePad.ReleasedButtons(PolledEvents(steps))) % 2 == 1)
  {
    JoystickLimits();
    var start := Loop(Init(grid), GamePad.NewReader(JoystickConfig.value, true, t0));
    ModeFollowsPresses(start, steps, controller, law, trig);
    CallbackSeesEveryRelease(start, steps, controller, law, trig);
    ModeFromStart(GamePad.ReleasedButtons(PolledEvents(steps)));
  }


  /** The unicycle model as a motion law, steering read as the turn rate.
      The program never drives this configuration: its vehicle model is
      a different one, and the joystick's steering is an angle in degrees,
      not a rate in radians per second. It serves to relate ticks to the
      kinematics of kinematics.py. */
  function Unicycle(trig: Trig): MotionLaw {
    (s: Kinematics.State, v: real, w: real, dt: real) => Kinematics.Update(s, v, w, dt, trig)
  }

  /** `n` ticks in a row. */
  function Ticks(sim: Sim, n: nat, rd: GamePad.Reader, controller: Controller, law: MotionLaw, trig: Trig): (r: Sim)
    requires sim.Valid()
    ensures r.Valid() && r.mode == sim.mode && r.sensors == sim.sensors
    decreases n
  {
    if n == 0 then sim else Ticks(OnTimer(sim, rd, controller, law, trig), n - 1, rd, controller, law, trig)
  }

  /** Under joystick control with the unicycle model, n ticks integrate
      the joystick's command n times with the tick's time step (the
      steering value taken as the turn rate, see `Unicycle`). */
  lemma {:induction false} ManualTicksIntegrateJoystick(sim: Sim, n: nat, rd: GamePad.Reader, controller: Controller, trig: Trig)
    requires sim.Valid() && sim.mode == Manual
    ensures Ticks(sim, n, rd, controller, Unicycle(trig), trig).pose
         == Kinematics.Run(sim.pose, Kinematics.Repeat(GamePad.GetSteering(rd), n), Dt, trig)
    decreases n
  {
    if n > 0 {
      var cmds := Kinematics.Repeat(GamePad.GetSteering(rd), n);
      assert cmds[1..] == Kinematics.Repeat(GamePad.GetSteering(rd), n - 1);
      var next := OnTimer(sim, rd, controller, Unicycle(trig), trig);
      assert next.pose == Kinematics.Update(sim.pose, cmds[0].0, cmds[0].1, Dt, trig);
      ManualTicksIntegrateJoystick(next, n - 1, rd, controller, trig);
    }
  }
}

=== FILE: wrappers.dfy ===
/** Failure-compatible optional values, used for the places where the
    program raises an exception instead of returning a value. */
module Wrappers {

  datatype Option<+T> = None | Some(value: T) {

    predicate IsFailure() {
      None?
    }

    function PropagateFailure<U>(): Option<U>
      requires None?
    {
      None
    }

    function Extract(): T
      requires Some?
    {
      value
    }
  }
}
